=== FILE: README.md ===
# Document processing pipeline and view analytics, modelled in Dafny

This project models the document-processing core of the `doc` data-room application, together with the small analytics endpoints next to it:

- **Ingest** (`processDocument`). It works out the document type and the download-only flag. It validates Notion pages and links. It records the document and its first version. Then, depending on whether a Trigger.dev secret is configured, it either:
  - queues a status record and rasterises PDFs in process (`processLocalPdf`), or
  - creates the status record and emits the background jobs whose task modules loaded.
- **The local rasteriser** (`POST /api/local/process-document`). It checks the caller, loads the version and its file, and walks the pages in order. Before each page it writes the progress. It skips pages that already have a row. It renders, scales, encodes and uploads the rest, recording orientation from page 1. Only a loop that reaches the end finalises the version.
- **The processing-status store** (`/api/analytics/processing-status`). Reading a missing record gives COMPLETED/100. A POST is a partial-update upsert.
- **The progress observer.** This is `/api/progress-token` and the file-processing status bar: its poll interval, rotating queued message, `onProcessingChange` report and render cascades.
- **View analytics.**
  - `/api/analytics/view-metadata`: user-agent classification, client IP, and upsert.
  - `/api/analytics/page-view`: a duration-accumulating upsert.
  - The page-view publisher: the event schema, the self-hosted writer, and the choice of exporters.

Everything is modelled as pure functions over immutable datatypes:

- The database is a `Documents.Store`, which holds:
  - the status records with a log of every status write;
  - the versions;
  - the page rows keyed by page number and version;
  - the log of page images sent to the blob store.
- The renderer (mupdf) is a parsed document given as a list of pages. Each page has its bounds, the byte lengths of both encodings, and its links.
- The blob store is a function from upload request to `{ type, data }`.
- Answers that come from outside are inputs:
  - the session lookup;
  - the file-name extension;
  - the Notion and URL checks;
  - the edge-config keyword list;
  - which Trigger.dev task modules loaded;
  - the job runner's run status.

Files and modules:

| file | modules | models |
|---|---|---|
| `wrappers.dfy` | `Wrappers`, `Js`, `Http` | optional values, JavaScript truthiness (`||`, `!!`), request methods and query values |
| `text.dfy` | `Text` | `includes`, `startsWith`, `split`, decimal rendering, `parseInt(s, 10)` |
| `documents.dfy` | `Documents` | versions, pages, uploads, the shared store |
| `status_store.dfy` | `StatusStore` | status records, database writes, the processing-status endpoint |
| `progress.dfy` | `PageProgress` | `Math.round((i / N) * 90) + 10` in exact arithmetic |
| `scale.dfy` | `PageScale` | the render scale and the 8000-pixel cap |
| `encoding.dfy` | `PageEncoding`, `DocIdPattern` | the smaller-encoding choice, the upload name and type, the `doc_` folder-id expression |
| `local_process.dfy` | `LocalProcess` | the local rasteriser handler and its page loop |
| `ingest.dfy` | `Ingest` | `processDocument` and `processLocalPdf` |
| `progress_token.dfy` | `ProgressToken` | the progress-token endpoint |
| `status_bar.dfy` | `StatusBar` | the status bar's decisions |
| `view_metadata.dfy` | `ViewMetadata` | user-agent parsing, client IP, the metadata upsert |
| `page_views.dfy` | `PageViews` | the page-view endpoint |
| `publish.dfy` | `Publish` | the page-view schema, the local writer, exporter binding |

Some of the code's behaviour is easy to misread, so lemmas state each point outright:

- **Equal sizes go to JPEG.** The page image is PNG only when the PNG is strictly smaller. The lossless encoding does not win ties (`PageEncoding.Choose`).
- **Progress is not strictly increasing.** The per-page value `Math.round((i / N) * 90) + 10` strictly increases only for up to 90 pages. From 180 pages on, the last page is reported at 100 before the version is finished (`PageProgress.ProgressIsStrictForSmallDocuments`, `PageProgress.ProgressReachesHundredBeforeLastPage`).
- **A failure leaves `error` alone.** `processLocalPdf` writes FAILED/0 with the error text in `message` and does not touch the record's `error` field (`Ingest.LocalPdfRun`).
- **COMPLETED and FAILED are not final.** The status endpoint checks no transition, so any valid status overwrites them (`StatusStore.TerminalStatesAreNotFinal`).
- **The status bar never polls.** Its local-mode branch would poll the status store every two seconds. But the bar's data comes from `/api/progress-token`, which never sends `localMode` or a status. So the bar never polls and never takes its local branch (`StatusBar.LocalBranchIsUnreachable`).

## Model

| member | source | states |
|---|---|---|
| LocalProcess.BearerToken | pages/api/local/process-document.ts:24-25 | The token is the second space-separated piece of the header: no header gives none, and a token holds no space and follows a space in the header. |
| LocalProcess.BearerOfInternalKey | pages/api/local/process-document.ts:24-27 | The header `Bearer <key>` that the pipeline sends itself yields exactly the key, for any key without a space. |
| LocalProcess.KeyWithSpaceNeverMatches | pages/api/local/process-document.ts:25-27 | A configured key containing a space can never equal a bearer token. |
| LocalProcess.UnsetKeyAdmitsTokenlessRequests | pages/api/local/process-document.ts:24-32 | With no internal key set, a request without a header, or whose header has no space, is let through without a session, because two absent values compare equal. |
| LocalProcess.Handle | pages/api/local/process-document.ts:19-54 | Non-POST is 405, failed authorisation is 401, a missing version id or team id is 400, each leaving the store untouched; a 200 implies the version exists. |
| LocalProcess.PageUploadKeepsSmaller | pages/api/local/process-document.ts:131-155 | The uploaded image is the smaller encoding, PNG exactly when strictly smaller; its length is one of the two; name `page-<k>.<ext>` and MIME type `image/<ext>` name the same format; the team and folder id are the job's. |
| LocalProcess.RenderedPageFits | pages/api/local/process-document.ts:161-176 | The page row records the original sizes, a scale within the base, rendered sizes equal to size times scale and within 8000, the page's links, and the blob store's key and type. |
| LocalProcess.ProcessPageCases | pages/api/local/process-document.ts:77-176 | One iteration: without a status row it stops with the update error and changes nothing; otherwise it writes the progress, skips an existing page with no upload and no new row, and for a missing page sends one upload and either adds the rendered row or stops with `Failed to upload page k`. |
| LocalProcess.RunPagesKeepsPages | pages/api/local/process-document.ts:89-101 | The loop never changes or removes an existing page row. |
| LocalProcess.RunPagesNewPages | pages/api/local/process-document.ts:147-176 | Every row the loop adds belongs to the version, is past the start index, and holds exactly what rendering and uploading that page gives. |
| LocalProcess.RunPagesCompletes | pages/api/local/process-document.ts:77-180 | A loop that ends without error leaves a row for every page past the start index. |
| LocalProcess.RunPagesUploads | pages/api/local/process-document.ts:89-155 | The uploads sent are those of the pages without a row, in page order, up to where the loop stopped; all of them when it finished (checked against the reference `Attempted`). |
| LocalProcess.RunPagesWithoutRecord | pages/api/local/process-document.ts:81-87 | Without a status row the first progress update throws: the loop fails with "Record to update not found." and changes nothing. |
| LocalProcess.RunPagesLog | pages/api/local/process-document.ts:80-87 | With a status row the loop appends one progress write per page it reached, carrying that page's progress and `處理中... k/N` message and the row's unchanged status and error; the whole run when it finished. |
| LocalProcess.RunPagesVersions | pages/api/local/process-document.ts:120-126 | The loop changes nothing about versions except this version's orientation, only when starting at page 1 with no row for page 1, and then sets it to height > width of page 1. |
| LocalProcess.RunPagesFailure | pages/api/local/process-document.ts:157-159 | The loop fails only with the missing-row error, or with `Failed to upload page k` for a page k without a row whose upload came back without data or type. |
| LocalProcess.RunPagesOnCompleteVersion | pages/api/local/process-document.ts:89-101 | Over a version whose pages all have rows, the loop sends no upload and changes no page or version. |
| LocalProcess.HandleSucceeds | pages/api/local/process-document.ts:182-194 | A 200 answers the page count and finalises the version with `numPages`, `hasPages` and `isPrimary`, keeps old rows, has a row for every page, and adds only rows rendered from this document. |
| LocalProcess.HandleFailureDoesNotFinalise | pages/api/local/process-document.ts:182-198 | Any answer other than 200 leaves every version's page count, `hasPages`, `isPrimary` and file as they were. |
| LocalProcess.HandleFailureMessage | pages/api/local/process-document.ts:196-198 | A failed run of an existing version and file answers 500 with the parser's error, the missing-row error, or `Failed to upload page k` for a page without a row whose upload was refused. |
| LocalProcess.RerunSendsNothing | pages/api/local/process-document.ts:89-101 | Running the handler again after a success sends no upload, adds no page and answers the same. |
| LocalProcess.HandleKeepsVersions | pages/api/local/process-document.ts:120-189 | The handler never removes a version, never changes a version's file or document, and never clears `isPrimary`. |
| LocalProcess.HandleLog | pages/api/local/process-document.ts:77-87 | With a status row, the handler only appends to the status log; what it appends is a run of progress writes within [10, 100] that never goes down and keeps status and error; a success appends one per page. |
| PageProgress.Progress | pages/api/local/process-document.ts:84 | The value lies in [10, 100], is 100 exactly when 180·i >= 179·N, and minus 10 is the rounding of 90·i/N (within one half, ties up). |
| PageProgress.ProgressIsMonotone | pages/api/local/process-document.ts:84 | Progress never goes down as the page index grows. |
| PageProgress.ProgressIsStrictForSmallDocuments | pages/api/local/process-document.ts:84 | With at most 90 pages, each page reports a strictly larger value. |
| PageProgress.ProgressReachesHundredBeforeLastPage | pages/api/local/process-document.ts:84 | The last page is reported at 100 exactly when N >= 180; below 180 pages every report is under 100. |
| PageProgress.ThreePageProgress | pages/api/local/process-document.ts:84 | A three-page document reports 10, 40, 70. |
| PageScale.ScaleFactor | pages/api/local/process-document.ts:111-118 | The scale is positive, at most the base, keeps both sides within 8000, is the base unless a side would exceed 8000, and otherwise puts one side exactly at 8000. |
| PageScale.ScaleFactorIsLargest | pages/api/local/process-document.ts:111-118 | No scale within the base that keeps both sides within 8000 is larger than the chosen one. |
| PageEncoding.Choose | pages/api/local/process-document.ts:131-136 | The kept length is at most both lengths and is the chosen format's own; equal lengths choose JPEG. |
| PageEncoding.NameAndTypeAgree | pages/api/local/process-document.ts:147-152 | The MIME type is `image/` followed by the extension that ends the file name after a dot. |
| PageEncoding.PageFileNameInjective | pages/api/local/process-document.ts:149 | Two uploads share a name only for the same page number and format. |
| DocIdPattern.DocId | pages/api/local/process-document.ts:144-145 | No id exactly when `(doc_[^\/]+)\/` matches nowhere; otherwise the id is the capture of the leftmost match. |
| Ingest.FindKeyword | lib/api/documents/process-document.ts:171-173 | Finds nothing exactly when no string entry is contained in the key; otherwise it returns the first contained string entry. |
| Ingest.EmptyKeywordMasksTheRest | lib/api/documents/process-document.ts:170-175 | A keyword list starting with "" never blocks: the empty match is found first and is falsy. |
| Ingest.FirstContainedKeywordBlocks | lib/api/documents/process-document.ts:170-181 | The first contained keyword, when non-empty, blocks the link. |
| Ingest.Jobs | lib/api/documents/process-document.ts:299-407 | Every emitted job has the team as concurrency key, the team/document/version tags, and the key `team-version` plus its kind's suffix. |
| Ingest.JobsFollowTheGates | lib/api/documents/process-document.ts:299-407 | A job of each kind is emitted exactly when its gate holds: type, content type and a loaded task module, with keynote slides taking precedence over the docs conversion. At most one job is emitted. |
| Ingest.IdempotencyKeys | lib/api/documents/process-document.ts:305-406 | Two job kinds share an idempotency key exactly when they are equal or both are the video and PDF jobs. |
| Ingest.Validate | lib/api/documents/process-document.ts:141-187 | A Notion page fails exactly when it is not accessible, with the not-publicly-available message; a link fails exactly when its URL is invalid, the edge-config read throws, or a non-empty first contained keyword blocks it, always with the invalid-URL message; no other type fails. |
| Ingest.ProcessDocument | lib/api/documents/process-document.ts:139-297 | A failed validation rejects with its message and nothing else does; a duplicate status record is refused only in delegated mode, and the store it leaves keeps the new version with no status write; the recorded document has the type, the download-only flag exactly for zip, map, email and TSV, the key and the advanced-sheet flag. |
| Ingest.LocalPdfRun | lib/api/documents/process-document.ts:47-107 | `processLocalPdf` appends PROCESSING/10, the handler's progress writes, then one final write: COMPLETED/100 with the page-count message on a 200, FAILED/0 with the error text in `message` otherwise; `error` is never touched, and a completed run's progress never goes down. |
| Ingest.InternalCallAuthorization | lib/api/documents/process-document.ts:62-75 | The pipeline's own call is let through exactly when the key is unset, or non-empty with no space. |
| Ingest.EmptyInternalKeyFailsEveryRun | lib/api/documents/process-document.ts:69-71 | An empty key sends no header and never matches, so every run ends FAILED with "Unauthorized". |
| Ingest.LocalPdfKeepsVersions | lib/api/documents/process-document.ts:47-107 | `processLocalPdf` keeps every version's file and document and never clears `isPrimary`. |
| Ingest.IngestRecordsVersion | lib/api/documents/process-document.ts:228-240 | The new version is recorded with the upload's key, the new document and as primary, in either mode, and also when the delegated status create then fails. |
| Ingest.DelegatedIngest | lib/api/documents/process-document.ts:208-429 | Delegated mode fails exactly when a status record exists, leaving the created version with status, pages and uploads unchanged; otherwise it creates QUEUED/0 "Waiting to process...", makes no other status write, no page and no upload, emits the gated jobs, and sets an advanced sheet to one page. |
| Ingest.LocalNonPdfIngest | lib/api/documents/process-document.ts:251-286 | Self-hosted, a non-PDF gets a QUEUED/0 write and then COMPLETED/100 "文件已就緒", with no job, page or upload. |
| Ingest.LocalPdfIngest | lib/api/documents/process-document.ts:251-275 | Self-hosted, a PDF is queued at 0 and then run through `processLocalPdf`; on success the progress written for the version never goes down, from 0 through 10 and the per-page values to 100. |
| StatusStore.ParseState | pages/api/analytics/processing-status.ts:48-64 | A status string is accepted exactly when it names one of the four states, and maps to that state. |
| StatusStore.Handle | pages/api/analytics/processing-status.ts:8-75 | A bad id is 400 for any method, other methods 405; GET reads without writing, a missing record as COMPLETED/100; POST upserts one record, applying on update only a truthy status and defined fields, and on create `status||QUEUED`, `progress||0`, `message||null`, `error||null`; an unknown status is 500. |
| StatusStore.PostThenGet | pages/api/analytics/processing-status.ts:14-64 | A GET after a POST of a full body returns exactly the posted values, whether or not a record existed. |
| StatusStore.TerminalStatesAreNotFinal | pages/api/analytics/processing-status.ts:48-56 | A COMPLETED or FAILED record is overwritten by any valid status. |
| StatusStore.EmptyMessageDependsOnPath | pages/api/analytics/processing-status.ts:50-62 | An empty message is stored as "" on the update path and as null on the create path. |
| ProgressToken.Handle | pages/api/progress-token.ts:7-33 | Non-GET is 405 and a missing id 400; a valid GET is 200 and self-hosted exactly when no secret is set; a token is what the generator gave for the version's scope, and a skipped token means the generator failed. |
| ProgressToken.ScopeRoundTrip | pages/api/progress-token.ts:26 | The scope `version:<id>` names back the version it was made from. |
| ProgressToken.ScopeIsInjective | pages/api/progress-token.ts:26 | Two versions never share a token scope. |
| StatusBar.NextIndex | components/documents/file-process-status-bar.tsx:89-91 | One tick always gives a valid index into the four messages. |
| StatusBar.IndexAfterTicks | components/documents/file-process-status-bar.tsx:84-92 | While queued the index after t ticks is (i + t) mod 4; otherwise it does not move. |
| StatusBar.ProcessingNotice | components/documents/file-process-status-bar.tsx:61-79 | A report is made exactly in local mode or with a token: locally "processing" exactly for QUEUED or PROCESSING; with a token exactly for a run state QUEUED or EXECUTING. |
| StatusBar.Render | components/documents/file-process-status-bar.tsx:100-186 | A drawn bar has a non-empty caption and an error bar is at 0. Outside local mode the fallback (nothing drawn, "not processing", a delayed refetch) is taken exactly when an answer has arrived that is self-hosted or has a null token. Which inputs give an error bar, nothing, or a refetch is stated in both directions for the local and the job-runner cascades. The captions are the source's: a local error shows `error || message || "Error processing document"`; local PROCESSING shows `progress || 0` with `message || "Processing document..."`; a job-runner error shows the hook error's message, else `text`, else the default; a running job shows `progress || 0` with `text || "Processing document..."`; both queued bars show the current rotating message. |
| StatusBar.QueuedCaption | components/documents/file-process-status-bar.tsx:118-159 | A queued bar after t ticks shows message t mod 4. |
| StatusBar.TokenDataIsNeverLocal | pages/api/progress-token.ts:19-33 | Nothing the token endpoint sends sets `localMode` or a status. |
| StatusBar.LocalBranchIsUnreachable | components/documents/file-process-status-bar.tsx:42-100 | Fed by the token endpoint, the bar never polls, never refetches from the local effect, reports only with a token, and draws from the job-runner cascade or the fallback alone. |
| StatusBar.SelfHostedShowsNothing | components/documents/file-process-status-bar.tsx:144-148 | In a self-hosted deployment a valid request sends the bar to its fallback: nothing is drawn, "not processing" is reported, a refetch follows after a delay, and the effects report nothing. |
| ViewMetadata.Device | pages/api/analytics/view-metadata.ts:38-44 | The device is always Mobile, Tablet or Desktop. |
| ViewMetadata.ParseUserAgent | pages/api/analytics/view-metadata.ts:5-47 | No user agent gives Unknown three times; a non-empty one never gives device Unknown. |
| ViewMetadata.BrowserFollowsRules | pages/api/analytics/view-metadata.ts:10-22 | The browser is the first-match reading of the rule table Chrome without Edg, Firefox, Safari without Chrome, Edge, IE, else Unknown. |
| ViewMetadata.OsFollowsRules | pages/api/analytics/view-metadata.ts:24-36 | The OS is the first-match reading of the rule table Windows, Mac OS, Linux without Android, Android, iOS names, else Unknown. |
| ViewMetadata.DeviceFollowsRules | pages/api/analytics/view-metadata.ts:38-44 | The device is the first-match reading of its rule table with Desktop as the default. |
| ViewMetadata.EdgeIsNotChrome | pages/api/analytics/view-metadata.ts:12-19 | A user agent with Chrome and Edg but not Firefox reads as Edge. |
| ViewMetadata.MacOsShadowsIPhone | pages/api/analytics/view-metadata.ts:26-44 | A user agent with Mac OS and iPhone but not Windows reads as macOS on a Mobile device. |
| ViewMetadata.ClientIp | pages/api/analytics/view-metadata.ts:65-67 | The IP is never empty. |
| ViewMetadata.ClientIpIsFirstHop | pages/api/analytics/view-metadata.ts:65-67 | The IP is the text of the forwarded header before its first comma when that is non-empty, else the socket address when non-empty, else Unknown. |
| ViewMetadata.Handle | pages/api/analytics/view-metadata.ts:53-103 | Non-POST is 405 with the method in the text, a missing view id is 400; a 200 happens exactly for a POST with a view id and writes that view's record alone, with country and city Unknown; the stored browser, OS and device are what `parseUserAgent` reads from the user agent, and the IP is the first-hop pick. |
| ViewMetadata.UpsertForgetsHistory | pages/api/analytics/view-metadata.ts:74-93 | The stored record depends only on the request, so posting twice is the same as posting once. |
| PageViews.Handle | pages/api/analytics/page-view.ts:8-49 | Non-POST is 405, missing fields 400; a 200 happens exactly for a complete POST and touches one key: an existing record gains `duration||0` with its version unchanged, a new one gets `versionNumber||1` and `duration||0`. |
| PageViews.PageZeroIsAccepted | pages/api/analytics/page-view.ts:12-14 | Page 0 is accepted; only an absent page number is refused. |
| PageViews.PostsAccumulate | pages/api/analytics/page-view.ts:18-31 | After a run of posts to an existing key, its duration has grown by the sum of the posted durations (missing or 0 as 0), its version is unchanged and no other key moved. |
| PageViews.FirstPostThenAccumulate | pages/api/analytics/page-view.ts:18-38 | From a fresh key, k posts leave one record with the first post's `versionNumber||1` and the sum of all durations. |
| Publish.ParseVersion | lib/tinybird/publish.ts:27 | The version is accepted exactly when it is an integer in [1, 65535], and defaults to 1 when absent. |
| Publish.ParsePageView | lib/tinybird/publish.ts:21-50 | A parsed event has a version in [1, 65535], 1 when absent; every optional string has a value, its default when absent and the given string otherwise; the parse succeeds exactly when the four ids and the page number are strings, time and duration are integers, the version is valid, the data room is a string, null or absent, the bot flag a boolean or absent, and every given optional is a string; the required fields and the given version and bot flag reach the event unchanged. |
| Publish.ParseEncode | lib/tinybird/publish.ts:21-50 | The schema parses back every event it can produce from its JSON form. |
| Publish.BareEventTakesDefaults | lib/tinybird/publish.ts:27-49 | An event with only the required fields takes version 1, Desktop, `(direct)` for both referers and Unknown elsewhere. |
| Publish.PublishLocal | lib/tinybird/publish.ts:53-95 | A page number `parseInt` cannot read writes nothing (the error is caught); otherwise exactly one page-view key and the view's metadata are written, and existing metadata is kept; an existing page view keeps its version and grows by the event's duration, a new one gets `versionNumber || 1` and the duration; new metadata carries the event's browser, OS, device, country and city with no IP. |
| Publish.WriterAgreesWithEndpoint | lib/tinybird/publish.ts:56-77 | For an event with ids and a readable page number, the local writer leaves the page-view table as a POST of the same values to the page-view endpoint does. |
| Publish.WriterAcceptsEmptyViewId | lib/tinybird/publish.ts:21-76 | The schema accepts an empty view id: the writer still records the page view, while the page-view endpoint answers 400 for the same values. |
| Publish.MetadataIsCreateOnly | lib/tinybird/publish.ts:80-91 | Metadata a view has is never changed by later events. |
| Publish.FirstMetadataPersists | lib/tinybird/publish.ts:80-91 | The first event recorded for a view fixes that view's metadata for good. |
| Publish.BindFrom | lib/tinybird/publish.ts:98-103 | The exports are either all the service endpoints or the local writer with no-op recorders. |
| Publish.ServiceIsNeverBound | lib/tinybird/publish.ts:98-103 | As written the exports are always the local ones, whatever the token and the import. |
| Publish.ServiceWhenAvailable | lib/tinybird/publish.ts:97-103 | Bound after the import settles, the service endpoints are used exactly when a token is set and the import succeeded. |
| Text.SplitOfJoin | pages/api/local/process-document.ts:25 | Splitting on a character undoes joining pieces that do not contain it. |
| Text.FirstPiece | pages/api/analytics/view-metadata.ts:65 | The first piece of a split is a prefix without the separator, followed by the separator when shorter than the text. |
| Text.ParseIntSkipsWhitespace | lib/tinybird/publish.ts:61 | Any ECMAScript white-space or line-terminator code point in front of the text leaves what `parseInt` reads unchanged. |
| Text.IdeographicSpaceBeforeNumber | lib/tinybird/publish.ts:73 | A page number written with a leading ideographic space, `"\u30005"`, is read as 5. |
| Text.ParseIntOfNatToString | lib/tinybird/publish.ts:61 | `parseInt` reads back the decimal text of any non-negative number. |

## Left out

- Rendering with mupdf (`toPixmap`, `asPNG`, `asJPEG`, `getLinks`) is an input: each page's bounds, both encoded lengths and its links. The `destroy` calls and native resources are not modelled.
- PageScale.ScaleFactor: computed over exact reals, not IEEE doubles, so values at the 8000 cap may differ in the last bit. A zero side is handled as JavaScript's division by zero giving Infinity.
- PageProgress.Progress: `Math.round((i / N) * 90)` is computed in exact rational arithmetic. A double that lands just beside a .5 boundary may round differently.
- Reading the file from `UPLOAD_DIR` is a map from the version's file key to its parsed content. `path.join` with the upload directory is not modelled. An unreadable file is a missing key (404). An unparsable one carries the parser's error.
- `getServerSession` is the request's `hasSession` flag. The pipeline's own server-side call is taken to carry no session.
- `putFileServer` is the environment's `upload` function. Its own failures other than an empty answer, and the page-row `create` failing, are not modelled.
- The internal `fetch` from `processLocalPdf` is the handler applied to the same store. Network failures of that fetch, `NEXT_PUBLIC_BASE_URL` and the JSON decoding of the answer are not modelled.
- Concurrency is not modelled. `processLocalPdf` runs fire-and-forget, but here it runs to its end inside `processDocument`. Interleavings with other writers are not modelled.
- The Notion page-id parsing and lookup and `new URL` are boolean inputs. The edge-config read is an input that is either a failed read or the value read. The log call with its mention is not modelled.
- Database failures are modelled only as:
  - `update` of a missing row;
  - `create` of an existing status row;
  - a status outside the four states.
- The text of a database error is abbreviated. An `update` of a missing row fails with "Record to update not found.". That text then becomes the 500 body and the FAILED message. The database's own message is longer and starts with an invocation header.
- Other database failures (the 500 answers of the analytics endpoints) are not modelled. The `updatedAt` timestamps are not modelled.
- New ids are inputs. The version id the database generates is taken to be new: `Ingest.Created` would overwrite a version with the same id, which the database never hands out.
- The document's folder lookup, owner, link creation, `isExternalUpload`, and the document-created and link-created webhooks are not modelled.
- Delegated mode:
  - jobs are emitted as descriptors, without the `queue` chosen from the team plan;
  - a `.trigger` call that throws, which would propagate to the caller, is not modelled;
  - `copyFileToBucketServer` and the revalidate fetch of the advanced-sheet path are not modelled, only its one-page write.
- Which Trigger.dev task modules have loaded is an input. The dynamic imports in `lib/api/documents/process-document.ts` are not modelled.
- `getExtension` from `lib/utils` is not part of this model; the extension is an input.
- Status bar:
  - The shared `fetcher` of `lib/utils` is not part of this model. It is taken to throw on a non-2xx answer, which leaves SWR's data undefined.
  - The job runner's realtime hook (`useDocumentProgressStatus`) is its run status and error message, as inputs.
  - SWR polling, the five-second timer and `setTimeout` are not modelled. They appear as the poll interval, the tick count and the refetch decision.
  - Styling is not modelled.
- JSON bodies are typed: strings may be absent or null, and numbers are integers or absent. NaN, fractional numbers and values of other JSON types in the analytics bodies are not modelled. The page-view schema does model a non-integer number as `Fraction`.
- A request method other than GET and POST is `OtherMethod`. Its name is only printed.
- Publish: the Tinybird ingestion itself is not modelled, and neither are the webhook, video, click and link-view event schemas. The model records only which exporter each name is bound to.
- `lib/analytics/local.ts`, `lib/tinybird/pipes.ts`, the local upload endpoints and the user-interface and e-mail files are not part of this model.

## Findings

| source | as written | input that shows it | evidently intended | confidence | as-written member | corrected member |
|---|---|---|---|---|---|---|
| lib/tinybird/publish.ts:98-103 | The five exports test `TINYBIRD_ENABLED && tb` while the module's top level runs. `tb` is assigned only in the `.then` callback of the dynamic import (lines 11-18), which runs after the top level has finished. | `TINYBIRD_TOKEN` set and the import succeeding: `publishPageView` is still the local writer and the other four recorders are no-ops. | The ingest endpoints once the client has loaded, as the comment on line 97 says ("uses Tinybird if available"). | high, not executed | Publish.ServiceIsNeverBound | Publish.ServiceWhenAvailable |

=== FILE: documents.dfy ===
/**
 * The database rows and blob-store calls the rasterisation pipeline touches:
 * document versions, their rendered pages (unique per page number and version),
 * the processing-status table, and the log of page images sent to the blob store.
 */
module Documents {
  import opened Wrappers
  import StatusStore

  /** A hyperlink region of a page: its target and its bounding box as `x0,y0,x1,y1`. */
  datatype Link = Link(href: string, coords: string)

  /** The unique key of a page row. */
  datatype PageKey = PageKey(pageNumber: int, versionId: string)

  /** Sizes in document units, rendered sizes in pixels, and the scale applied. */
  datatype PageMetadata = PageMetadata(originalWidth: real, originalHeight: real, width: real, height: real, scaleFactor: real)

  datatype DocumentPage = DocumentPage(file: string, storageType: string, pageLinks: seq<Link>, metadata: PageMetadata)

  /** A document version; `numPages` and `isVertical` are absent until written. */
  datatype DocumentVersion = DocumentVersion(
    file: string,
    documentId: string,
    numPages: Option<int>,
    isVertical: Option<bool>,
    hasPages: bool,
    isPrimary: bool)

  /** One page image handed to the blob store. */
  datatype UploadRequest = UploadRequest(name: string, contentType: string, byteLength: nat, teamId: string, docId: Option<string>)

  datatype Store = Store(
    status: StatusStore.Db,
    versions: map<string, DocumentVersion>,
    pages: map<PageKey, DocumentPage>,
    uploads: seq<UploadRequest>)

  /** `after` keeps every row of `before` unchanged. */
  ghost predicate KeepsPages(before: map<PageKey, DocumentPage>, after: map<PageKey, DocumentPage>) {
    forall key :: key in before ==> key in after && after[key] == before[key]
  }
}

=== FILE: encoding.dfy ===
/**
 * Choosing the stored encoding of a rendered page, and the name and MIME type the
 * page image is uploaded under.
 */
module PageEncoding {
  import opened Text

  datatype Format = Png | Jpeg

  /** The encoding kept for a page: its format and the byte length actually stored. */
  datatype Encoding = Encoding(format: Format, byteLength: nat)

  /**
   * Both encodings are produced and the smaller one is kept; PNG wins only when
   * strictly smaller, so a tie goes to JPEG.
   */
  function Choose(pngLength: nat, jpegLength: nat): (e: Encoding)
    ensures e.byteLength <= pngLength && e.byteLength <= jpegLength
    ensures e.format == Png ==> e.byteLength == pngLength
    ensures e.format == Jpeg ==> e.byteLength == jpegLength
    ensures pngLength == jpegLength ==> e.format == Jpeg
  {
    if pngLength < jpegLength then Encoding(Png, pngLength) else Encoding(Jpeg, jpegLength)
  }

  function Extension(f: Format): string {
    match f
    case Png => "png"
    case Jpeg => "jpeg"
  }

  /** `image/${format}`. */
  function MimeType(f: Format): string {
    "image/" + Extension(f)
  }

  /** `page-${pageNumber}.${format}`. */
  function PageFileName(pageNumber: nat, f: Format): string {
    "page-" + NatToString(pageNumber) + "." + Extension(f)
  }

  /** The MIME type names the same format as the file extension. */
  lemma NameAndTypeAgree(pageNumber: nat, f: Format)
    ensures var name := PageFileName(pageNumber, f);
            && StartsWith(MimeType(f), "image/")
            && MimeType(f)[|"image/"|..] == Extension(f)
            && name[|name| - |Extension(f)|..] == Extension(f)
            && name[|name| - |Extension(f)| - 1] == '.'
  {
  }

  /** Distinct pages, or one page in two formats, never share an upload name. */
  lemma PageFileNameInjective(k1: nat, f1: Format, k2: nat, f2: Format)
    requires PageFileName(k1, f1) == PageFileName(k2, f2)
    ensures k1 == k2 && f1 == f2
  {
    var d1, d2 := NatToString(k1), NatToString(k2);
    var t1, t2 := d1 + "." + Extension(f1), d2 + "." + Extension(f2);
    assert PageFileName(k1, f1) == "page-" + t1;
    assert PageFileName(k2, f2) == "page-" + t2;
    assert t1 == PageFileName(k1, f1)[5..] == PageFileName(k2, f2)[5..] == t2;
    DigitsBeforeDot(d1, Extension(f1), d2, Extension(f2));
    NatToStringInjective(k1, k2);
  }

  lemma DigitsBeforeDot(d1: string, e1: string, d2: string, e2: string)
    requires AllDigits(d1) && AllDigits(d2)
    requires d1 + "." + e1 == d2 + "." + e2
    ensures d1 == d2 && e1 == e2
  {
    NoDotInDigits(d1);
    NoDotInDigits(d2);
    SplitAfterPiece(d1, '.', e1);
    SplitAfterPiece(d2, '.', e2);
    assert d1 == Split(d1 + "." + e1, '.')[0] == d2;
    assert e1 == (d1 + "." + e1)[|d1| + 1..] == (d2 + "." + e2)[|d2| + 1..] == e2;
  }

  lemma NoDotInDigits(d: string)
    requires AllDigits(d)
    ensures '.' !in d
  {
  }
}

/**
 * The document folder id taken from a version's file key with the regular
 * expression `/(doc_[^\/]+)\//`: the leftmost `doc_` followed by one or more
 * characters other than `/` and then a `/`; the capture is `doc_` and those characters.
 */
module DocIdPattern {
  import opened Wrappers

  /** The expression matches `s[p..j+1]`, capturing `s[p..j]`. */
  ghost predicate MatchesAt(s: string, p: int, j: int) {
    && 0 <= p && p + 4 < j < |s|
    && s[p..p + 4] == "doc_"
    && s[j] == '/'
    && forall k :: p + 4 <= k < j ==> s[k] != '/'
  }

  /** The index of the first `/` at or after `from`, or `|s|` when there is none. */
  function NextSlash(s: string, from: nat): (j: nat)
    requires from <= |s|
    ensures from <= j <= |s|
    ensures j < |s| ==> s[j] == '/'
    ensures forall k :: from <= k < j ==> s[k] != '/'
    decreases |s| - from
  {
    if from == |s| || s[from] == '/' then from else NextSlash(s, from + 1)
  }

  /** The leftmost match starting at or after `p`. */
  function DocIdFrom(s: string, p: nat): (r: Option<string>)
    requires p <= |s|
    ensures r.None? ==> forall q, j :: p <= q && MatchesAt(s, q, j) ==> false
    ensures r.Some? ==> exists q, j :: && p <= q && MatchesAt(s, q, j) && r.value == s[q..j]
                                       && forall q', j' :: p <= q' < q ==> !MatchesAt(s, q', j')
    decreases |s| - p
  {
    if p + 4 >= |s| then None
    else if s[p..p + 4] == "doc_" && NextSlash(s, p + 4) < |s| && NextSlash(s, p + 4) > p + 4 then
      assert MatchesAt(s, p, NextSlash(s, p + 4));
      Some(s[p..NextSlash(s, p + 4)])
    else
      var r := DocIdFrom(s, p + 1);
      NoMatchAt(s, p);
      LeftmostExtends(s, p, r);
      r
  }

  /** Without a match at `p`, the leftmost match from `p + 1` is the leftmost from `p`. */
  lemma LeftmostExtends(s: string, p: nat, r: Option<string>)
    requires p < |s|
    requires forall j :: !MatchesAt(s, p, j)
    requires r.None? ==> forall q, j :: p + 1 <= q && MatchesAt(s, q, j) ==> false
    requires r.Some? ==> exists q, j :: && p + 1 <= q && MatchesAt(s, q, j) && r.value == s[q..j]
                                       && forall q', j' :: p + 1 <= q' < q ==> !MatchesAt(s, q', j')
    ensures r.None? ==> forall q, j :: p <= q && MatchesAt(s, q, j) ==> false
    ensures r.Some? ==> exists q, j :: && p <= q && MatchesAt(s, q, j) && r.value == s[q..j]
                                       && forall q', j' :: p <= q' < q ==> !MatchesAt(s, q', j')
  {
    if r.Some? {
      var q, j :| && p + 1 <= q && MatchesAt(s, q, j) && r.value == s[q..j]
                  && forall q', j' :: p + 1 <= q' < q ==> !MatchesAt(s, q', j');
      assert forall q', j' :: p <= q' < q ==> !MatchesAt(s, q', j');
    }
  }

  lemma NoMatchAt(s: string, p: nat)
    requires p + 4 < |s|
    requires !(s[p..p + 4] == "doc_" && NextSlash(s, p + 4) < |s| && NextSlash(s, p + 4) > p + 4)
    ensures forall j :: !MatchesAt(s, p, j)
  {
  }

  /** `match ? match[1] : undefined` for the expression above. */
  function DocId(file: string): (r: Option<string>)
    ensures r.None? <==> forall q, j :: !MatchesAt(file, q, j)
    ensures r.Some? ==> exists q, j :: && MatchesAt(file, q, j) && r.value == file[q..j]
                                       && forall q', j' :: q' < q ==> !MatchesAt(file, q', j')
  {
    DocIdFrom(file, 0)
  }
}

=== FILE: ingest.dfy ===
/**
 * `processDocument`: validates a new upload, records the document with its first
 * version, and starts its processing. Self-hosted (no Trigger.dev secret) it queues a
 * status record and rasterises PDFs in process through `processLocalPdf`; delegated,
 * it creates the status record and emits the background jobs whose task modules loaded.
 *
 * The Notion lookup, URL parsing, the edge-config keyword list, the generated ids and
 * the file-name extension are answers supplied from outside; job triggers are emitted
 * as descriptors.
 */
module Ingest {
  import opened Wrappers
  import opened Js
  import opened Http
  import opened Text
  import StatusStore
  import opened Documents
  import LocalProcess

  // ---------------------------------------------------------------------------
  // The document type and the download-only rule

  /** `supportedFileType || getExtension(name)`; the extension is given. */
  function DocType(supportedFileType: JsString, extension: string): (t: string)
    ensures Truthy(supportedFileType) ==> t == supportedFileType.s
    ensures !Truthy(supportedFileType) ==> t == extension
  {
    Or(supportedFileType, extension)
  }

  /** Archives, maps, e-mails and TSV files are offered for download only. */
  predicate DownloadOnly(docType: string, contentType: Option<string>) {
    docType == "zip" || docType == "map" || docType == "email" || contentType == Some("text/tab-separated-values")
  }

  // ---------------------------------------------------------------------------
  // The link check

  /** One entry of the edge-config `keywords` list. */
  datatype ConfigItem = Text(s: string) | NonString

  /** The edge-config read: it throws (`ReadFailed`), or gives anything that is not an array, or an array. */
  datatype ConfigValue = ReadFailed | NotAnArray | Items(items: seq<ConfigItem>)

  predicate MatchesKey(key: string, item: ConfigItem) {
    item.Text? && Contains(key, item.s)
  }

  /** `keywords.find(k => typeof k === "string" && key.includes(k))`. */
  function FindKeyword(key: string, items: seq<ConfigItem>): (r: Option<string>)
    ensures r.None? <==> forall k :: 0 <= k < |items| ==> !MatchesKey(key, items[k])
    ensures r.Some? ==> exists k :: && 0 <= k < |items| && items[k] == Text(r.value) && MatchesKey(key, items[k])
                                    && forall e :: 0 <= e < k ==> !MatchesKey(key, items[e])
    decreases |items|
  {
    if |items| == 0 then None
    else if MatchesKey(key, items[0]) then Some(items[0].s)
    else
      var r := FindKeyword(key, items[1..]);
      assert forall k :: 1 <= k < |items| ==> items[k] == items[1..][k - 1];
      r
  }

  /** The keyword check blocks when the keyword found is truthy, i.e. non-empty. */
  predicate KeywordBlocked(key: string, keywords: ConfigValue) {
    && keywords.Items?
    && |keywords.items| > 0
    && var found := FindKeyword(key, keywords.items);
       found.Some? && found.value != ""
  }

  const InvalidLink: string := "Invalid URL format for link document."
  const NotionUnavailable: string := "This Notion page isn't publically available."

  /**
   * A URL that does not parse, an edge-config read that throws and a blocked keyword
   * all raise inside the same `try`, whose `catch` replaces each error with the
   * invalid-URL message.
   */
  function LinkError(key: string, urlValid: bool, keywords: ConfigValue): (e: Option<string>)
    ensures e.Some? ==> e.value == InvalidLink
    ensures keywords.ReadFailed? ==> e == Some(InvalidLink)
    ensures e.Some? <==> !urlValid || keywords.ReadFailed? || KeywordBlocked(key, keywords)
  {
    if !urlValid || keywords.ReadFailed? || KeywordBlocked(key, keywords) then Some(InvalidLink) else None
  }

  /**
   * A keyword list that starts with "" never blocks: `find` returns the empty string,
   * which every key includes, and an empty match is falsy.
   */
  lemma EmptyKeywordMasksTheRest(key: string, rest: seq<ConfigItem>)
    ensures !KeywordBlocked(key, Items([Text("")] + rest))
  {
    assert OccursAt(key, "", 0);
    assert MatchesKey(key, Text(""));
  }

  /** A non-empty listed keyword that is the first one contained in the key blocks the link. */
  lemma FirstContainedKeywordBlocks(key: string, items: seq<ConfigItem>, k: nat)
    requires k < |items| && items[k].Text? && items[k].s != ""
    requires MatchesKey(key, items[k])
    requires forall e :: 0 <= e < k ==> !MatchesKey(key, items[e])
    ensures KeywordBlocked(key, Items(items))
  {
    var found := FindKeyword(key, items);
    var j :| && 0 <= j < |items| && items[j] == Text(found.value) && MatchesKey(key, items[j])
             && forall e :: 0 <= e < j ==> !MatchesKey(key, items[e]);
    assert j == k;
  }

  // ---------------------------------------------------------------------------
  // Background jobs

  /** Which Trigger.dev task modules finished loading. */
  datatype LoadedTasks = LoadedTasks(filesToPdf: bool, keynoteToPdf: bool, cadToPdf: bool, pdfToImage: bool, processVideo: bool)

  datatype JobKind = KeynoteToPdf | FilesToPdf | CadToPdf | OptimizeVideo | PdfToImage

  datatype Payload =
    | Conversion(documentId: string, documentVersionId: string, teamId: string)
    | Video(videoUrl: string, teamId: string, docId: Option<string>, documentVersionId: string, fileSize: int)

  datatype JobDescriptor = JobDescriptor(kind: JobKind, idempotencyKey: string, tags: seq<string>, concurrencyKey: string, payload: Payload)

  function Tags(teamId: string, documentId: string, versionId: string): seq<string> {
    ["team_" + teamId, "document_" + documentId, "version:" + versionId]
  }

  /** The key suffix of each kind; the video and PDF jobs have none. */
  function KeySuffix(kind: JobKind): string {
    match kind
    case KeynoteToPdf => "-keynote"
    case FilesToPdf => "-docs"
    case CadToPdf => "-cad"
    case OptimizeVideo => ""
    case PdfToImage => ""
  }

  function Descriptor(kind: JobKind, teamId: string, documentId: string, versionId: string, payload: Payload): JobDescriptor {
    JobDescriptor(kind, teamId + "-" + versionId + KeySuffix(kind), Tags(teamId, documentId, versionId), teamId, payload)
  }

  predicate IsKeynote(contentType: Option<string>) {
    contentType == Some("application/vnd.apple.keynote") || contentType == Some("application/x-iwork-keynote-sffkey")
  }

  /** `contentType !== "video/mp4" && contentType?.startsWith("video/")`. */
  predicate IsConvertibleVideo(contentType: Option<string>) {
    contentType.Some? && contentType.value != "video/mp4" && StartsWith(contentType.value, "video/")
  }

  /** `key.split("/")[1]`. */
  function SecondSegment(key: string): Option<string> {
    var parts := Split(key, '/');
    if |parts| >= 2 then Some(parts[1]) else None
  }

  /** The upload being dispatched, as the job payloads need it. */
  datatype Upload = Upload(docType: string, contentType: Option<string>, key: string, fileSize: Option<int>,
                           teamId: string, documentId: string, versionId: string)

  /** The jobs triggered in delegated mode, in the order the source triggers them. */
  function Jobs(u: Upload, loaded: LoadedTasks): (js: seq<JobDescriptor>)
    ensures forall j :: j in js ==>
              && j.concurrencyKey == u.teamId
              && j.tags == Tags(u.teamId, u.documentId, u.versionId)
              && j.idempotencyKey == u.teamId + "-" + u.versionId + KeySuffix(j.kind)
  {
    var conversion := Conversion(u.documentId, u.versionId, u.teamId);
    var convert :=
      if u.docType == "slides" && IsKeynote(u.contentType) && loaded.keynoteToPdf then
        [Descriptor(KeynoteToPdf, u.teamId, u.documentId, u.versionId, conversion)]
      else if (u.docType == "docs" || u.docType == "slides") && loaded.filesToPdf then
        [Descriptor(FilesToPdf, u.teamId, u.documentId, u.versionId, conversion)]
      else [];
    var cad :=
      if u.docType == "cad" && loaded.cadToPdf then [Descriptor(CadToPdf, u.teamId, u.documentId, u.versionId, conversion)] else [];
    var video :=
      if u.docType == "video" && IsConvertibleVideo(u.contentType) && loaded.processVideo then
        [Descriptor(OptimizeVideo, u.teamId, u.documentId, u.versionId,
                    Video(u.key, u.teamId, SecondSegment(u.key), u.versionId, NumOr(u.fileSize, 0)))]
      else [];
    var pdf :=
      if u.docType == "pdf" && loaded.pdfToImage then [Descriptor(PdfToImage, u.teamId, u.documentId, u.versionId, conversion)] else [];
    convert + cad + video + pdf
  }

  /** Whether the job of `kind` is triggered: the gates of the source, one per kind. */
  predicate Fires(kind: JobKind, u: Upload, loaded: LoadedTasks) {
    match kind
    case KeynoteToPdf => u.docType == "slides" && IsKeynote(u.contentType) && loaded.keynoteToPdf
    case FilesToPdf =>
      (u.docType == "docs" || u.docType == "slides") && loaded.filesToPdf
      && !(u.docType == "slides" && IsKeynote(u.contentType) && loaded.keynoteToPdf)
    case CadToPdf => u.docType == "cad" && loaded.cadToPdf
    case OptimizeVideo => u.docType == "video" && IsConvertibleVideo(u.contentType) && loaded.processVideo
    case PdfToImage => u.docType == "pdf" && loaded.pdfToImage
  }

  /**
   * A job of each kind is emitted exactly when its gate holds, and at most one job is
   * emitted, since every gate names a different type; in particular the keynote and
   * docs conversions never both run.
   */
  lemma {:induction false} JobsFollowTheGates(u: Upload, loaded: LoadedTasks)
    ensures var js := Jobs(u, loaded);
            && |js| <= 1
            && forall kind :: (exists j :: j in js && j.kind == kind) <==> Fires(kind, u, loaded)
  {
    var js := Jobs(u, loaded);
    forall kind
      ensures (exists j :: j in js && j.kind == kind) <==> Fires(kind, u, loaded)
    {
      if Fires(kind, u, loaded) {
        assert js[0].kind == kind;
      }
    }
  }

  /** Jobs of different kinds get different keys, except the video and PDF jobs, which share one. */
  lemma IdempotencyKeys(teamId: string, versionId: string, k1: JobKind, k2: JobKind)
    ensures var prefix := teamId + "-" + versionId;
            (prefix + KeySuffix(k1) == prefix + KeySuffix(k2)) <==>
              (k1 == k2 || (k1 in {OptimizeVideo, PdfToImage} && k2 in {OptimizeVideo, PdfToImage}))
  {
    var prefix := teamId + "-" + versionId;
    if prefix + KeySuffix(k1) == prefix + KeySuffix(k2) {
      assert KeySuffix(k1) == (prefix + KeySuffix(k1))[|prefix|..];
      assert KeySuffix(k2) == (prefix + KeySuffix(k2))[|prefix|..];
    }
  }

  // ---------------------------------------------------------------------------
  // processLocalPdf

  const QueuedMessage: string := "等待處理..."
  const StartMessage: string := "正在處理文件..."
  const ReadyMessage: string := "文件已就緒"
  const WaitingMessage: string := "Waiting to process..."

  function CompletedMessage(numPages: nat): string {
    "已處理 " + NatToString(numPages) + " 頁"
  }

  function StartPatch(): StatusStore.Patch {
    StatusStore.Patch(Some(StatusStore.Processing), Some(10), Some(Some(StartMessage)), None)
  }

  function CompletedPatch(numPages: nat): StatusStore.Patch {
    StatusStore.Patch(Some(StatusStore.Completed), Some(100), Some(Some(CompletedMessage(numPages))), None)
  }

  /** The failure write leaves `error` alone and puts the error text in `message`. */
  function FailedPatch(message: string): StatusStore.Patch {
    StatusStore.Patch(Some(StatusStore.Failed), Some(0), Some(Some(message)), None)
  }

  /**
   * The request the pipeline sends itself: POST, with `Bearer <key>` only when the key
   * is truthy, and no session (a server-side fetch carries no cookies).
   */
  function InternalRequest(env: LocalProcess.Environment, versionId: string, teamId: string): LocalProcess.Request {
    var key := env.internalApiKey;
    var header := if Present(key) then Some("Bearer " + key.value) else None;
    LocalProcess.Request(Post, header, false, Str(versionId), Str(teamId))
  }

  /** `error.error || "Processing failed"` for a failed response. */
  function ErrorText(body: LocalProcess.Body): string {
    if body.ErrorBody? && body.error != "" then body.error else "Processing failed"
  }

  /** The `catch` branch: write FAILED; if that write throws too, nothing is written. */
  function Fail(store: Store, versionId: string, message: string): Store {
    match StatusStore.Update(store.status, versionId, FailedPatch(message))
    case Some(db) => store.(status := db)
    case None => store
  }

  /** The store after the PROCESSING/10 write, when the status record exists. */
  function Started(store: Store, versionId: string): Store
    requires versionId in store.status.records
  {
    store.(status := StatusStore.Update(store.status, versionId, StartPatch()).value)
  }

  /** The answer of the internal call made after the PROCESSING/10 write. */
  function InternalOutcome(store: Store, env: LocalProcess.Environment, versionId: string, teamId: string): LocalProcess.Outcome
    requires versionId in store.status.records
  {
    LocalProcess.Handle(Started(store, versionId), env, InternalRequest(env, versionId, teamId))
  }

  /** What follows the internal call: COMPLETED/100 on a 200, the `catch` branch otherwise. */
  function Conclude(o: LocalProcess.Outcome, versionId: string): Store {
    if o.response.code == 200 && o.response.body.Processed? then
      match StatusStore.Update(o.store.status, versionId, CompletedPatch(o.response.body.numPages))
      case Some(db) => o.store.(status := db)
      case None => Fail(o.store, versionId, LocalProcess.RecordNotFound)
    else Fail(o.store, versionId, ErrorText(o.response.body))
  }

  /** `processLocalPdf`: PROCESSING/10, the internal call, then COMPLETED/100 or FAILED/0. */
  function ProcessLocalPdf(store: Store, env: LocalProcess.Environment, versionId: string, teamId: string): (s: Store)
  {
    if versionId !in store.status.records then Fail(store, versionId, LocalProcess.RecordNotFound)
    else Conclude(InternalOutcome(store, env, versionId, teamId), versionId)
  }

  function Progresses(es: seq<StatusStore.Entry>): seq<int> {
    seq(|es|, t requires 0 <= t < |es| => es[t].record.progress)
  }

  predicate NonDecreasing(xs: seq<int>) {
    forall a, b :: 0 <= a <= b < |xs| ==> xs[a] <= xs[b]
  }

  /** The log facts `LocalPdfRun` states, for a run that started from `before` and record `rec`. */
  ghost predicate LocalRunLog(s: Store, o: LocalProcess.Outcome, before: seq<StatusStore.Entry>,
                              versionId: string, rec: StatusStore.StatusRecord) {
    && |before| + 2 <= |s.status.log| && s.status.log[..|before|] == before
    && versionId in s.status.records
    && var added := s.status.log[|before|..];
       var last := added[|added| - 1];
       && added[0] == StatusStore.Entry(versionId, StatusStore.StatusRecord(StatusStore.Processing, 10, Some(StartMessage), rec.error))
       && LocalProcess.ProgressRun(added[1..|added| - 1], versionId, StatusStore.Processing, rec.error)
       && last.versionId == versionId
       && s.status.records[versionId] == last.record
       && last.record.error == rec.error
       && (o.response.code == 200 ==>
             && last.record.status == StatusStore.Completed && last.record.progress == 100
             && o.response.body.Processed?
             && last.record.message == Some(CompletedMessage(o.response.body.numPages))
             && NonDecreasing(Progresses(added)))
       && (o.response.code != 200 ==>
             && last.record.status == StatusStore.Failed && last.record.progress == 0
             && last.record.message == Some(ErrorText(o.response.body)))
  }

  /**
   * With a status record, `processLocalPdf` appends PROCESSING/10, then the handler's
   * progress writes, then exactly one final write: COMPLETED/100 with the page count
   * when the call answered 200, FAILED/0 with the error text otherwise. Neither final
   * write touches `error`, and a completed run reports progress that never goes down.
   */
  lemma LocalPdfRun(store: Store, env: LocalProcess.Environment, versionId: string, teamId: string)
    requires versionId in store.status.records
    ensures LocalRunLog(ProcessLocalPdf(store, env, versionId, teamId), InternalOutcome(store, env, versionId, teamId),
                        store.status.log, versionId, store.status.records[versionId])
  {
    var rec := store.status.records[versionId];
    var s1 := Started(store, versionId);
    var first := StatusStore.Entry(versionId, StatusStore.StatusRecord(StatusStore.Processing, 10, Some(StartMessage), rec.error));
    assert s1.status.log == store.status.log + [first];
    assert s1.status.records[versionId] == first.record;
    var o := InternalOutcome(store, env, versionId, teamId);
    if versionId == "" {
      assert o.store == s1;
      assert o.store.status.log[|s1.status.log|..] == [];
    } else {
      LocalProcess.HandleLog(s1, env, InternalRequest(env, versionId, teamId));
    }
    ConcludeLog(o, store.status.log, first, versionId, rec);
  }

  lemma ConcludeLog(o: LocalProcess.Outcome, before: seq<StatusStore.Entry>, first: StatusStore.Entry,
                    versionId: string, rec: StatusStore.StatusRecord)
    requires first == StatusStore.Entry(versionId, StatusStore.StatusRecord(StatusStore.Processing, 10, Some(StartMessage), rec.error))
    requires var mid := before + [first];
             && |mid| <= |o.store.status.log| && o.store.status.log[..|mid|] == mid
             && LocalProcess.ProgressRun(o.store.status.log[|mid|..], versionId, StatusStore.Processing, rec.error)
    requires versionId in o.store.status.records
    requires o.store.status.records[versionId].status == StatusStore.Processing
    requires o.store.status.records[versionId].error == rec.error
    requires o.response.code == 200 ==> o.response.body.Processed?
    ensures LocalRunLog(Conclude(o, versionId), o, before, versionId, rec)
  {
    var mid := before + [first];
    var es := o.store.status.log[|mid|..];
    assert o.store.status.log == before + [first] + es;
    var orec := o.store.status.records[versionId];
    var s := Conclude(o, versionId);
    var lastRecord := if o.response.code == 200 then StatusStore.Apply(orec, CompletedPatch(o.response.body.numPages))
                      else StatusStore.Apply(orec, FailedPatch(ErrorText(o.response.body)));
    var last := StatusStore.Entry(versionId, lastRecord);
    var added := [first] + es + [last];
    assert s.status.log == before + added;
    assert s.status.log[|before|..] == added;
    assert added[1..|added| - 1] == es;
    if o.response.code == 200 {
      AddedIsNonDecreasing(first, es, last, versionId, rec.error);
    }
  }

  lemma AddedIsNonDecreasing(first: StatusStore.Entry, es: seq<StatusStore.Entry>, last: StatusStore.Entry,
                             versionId: string, error: Option<string>)
    requires first.record.progress == 10 && last.record.progress == 100
    requires LocalProcess.ProgressRun(es, versionId, StatusStore.Processing, error)
    ensures NonDecreasing(Progresses([first] + es + [last]))
  {
    var added := [first] + es + [last];
    var ps := Progresses(added);
    forall a, b | 0 <= a <= b < |ps|
      ensures ps[a] <= ps[b]
    {
      if 0 < a && b < |ps| - 1 {
        assert added[a] == es[a - 1] && added[b] == es[b - 1];
      } else if 0 < a && a < |ps| - 1 {
        assert added[a] == es[a - 1];
      } else if 0 < b && b < |ps| - 1 {
        assert added[b] == es[b - 1];
      }
    }
  }

  // ---------------------------------------------------------------------------
  // processDocument

  datatype DocumentData = DocumentData(
    name: string,
    key: string,
    contentType: Option<string>,
    supportedFileType: JsString,
    fileSize: Option<int>,
    numPages: Option<int>,
    enableExcelAdvancedMode: bool)

  /** Answers from outside the function: the name's extension, the Notion and URL checks, edge config, new ids. */
  datatype Lookups = Lookups(
    extension: string,
    notionAccessible: bool,
    urlValid: bool,
    keywords: ConfigValue,
    documentId: string,
    versionId: string)

  /** The mode is delegated when a Trigger.dev secret is set; the task modules may or may not have loaded. */
  datatype Deployment = Deployment(triggerSecretKey: Option<string>, loaded: LoadedTasks)

  datatype DocumentRecord = DocumentRecord(
    name: string,
    file: string,
    docType: string,
    contentType: Option<string>,
    downloadOnly: bool,
    advancedExcelEnabled: bool,
    versionId: string)

  datatype IngestResult =
    | Rejected(message: string)
    | StatusRecordExists(store: Store)
    | Ingested(store: Store, document: DocumentRecord, jobs: seq<JobDescriptor>)

  function QueuedRecord(message: string): StatusStore.StatusRecord {
    StatusStore.StatusRecord(StatusStore.Queued, 0, Some(message), None)
  }

  function QueuedPatch(): StatusStore.Patch {
    StatusStore.Patch(Some(StatusStore.Queued), Some(0), Some(Some(QueuedMessage)), None)
  }

  function ReadyPatch(): StatusStore.Patch {
    StatusStore.Patch(Some(StatusStore.Completed), Some(100), Some(Some(ReadyMessage)), None)
  }

  /** The QUEUED/0 upsert of self-hosted mode. */
  function LocalQueued(store: Store, versionId: string): Store {
    store.(status := StatusStore.Upsert(store.status, versionId, QueuedPatch(), QueuedRecord(QueuedMessage)))
  }

  /** Self-hosted: upsert QUEUED/0, then rasterise a PDF in process or mark anything else ready. */
  function StartLocal(store: Store, env: LocalProcess.Environment, docType: string, versionId: string, teamId: string): Store {
    var queued := LocalQueued(store, versionId);
    if docType == "pdf" then ProcessLocalPdf(queued, env, versionId, teamId)
    else
      match StatusStore.Update(queued.status, versionId, ReadyPatch())
      case Some(db) => queued.(status := db)
      case None => queued
  }

  /**
   * The store once the document and its first version are created. The version id is
   * the one the database generates, so it is taken to be new.
   */
  function Created(store: Store, data: DocumentData, lookups: Lookups): Store {
    store.(versions := store.versions[lookups.versionId := DocumentVersion(data.key, lookups.documentId, data.numPages, None, false, true)])
  }

  /** The validations that throw before anything is written. */
  function Validate(data: DocumentData, lookups: Lookups): (e: Option<string>)
    ensures var t := DocType(data.supportedFileType, lookups.extension);
            && (t == "notion" ==> (e.Some? <==> !lookups.notionAccessible) && (e.Some? ==> e.value == NotionUnavailable))
            && (t == "link" ==> e == LinkError(data.key, lookups.urlValid, lookups.keywords))
            && (t != "notion" && t != "link" ==> e.None?)
  {
    var t := DocType(data.supportedFileType, lookups.extension);
    if t == "notion" && !lookups.notionAccessible then Some(NotionUnavailable)
    else if t == "link" then LinkError(data.key, lookups.urlValid, lookups.keywords)
    else None
  }

  function ProcessDocument(store: Store, env: LocalProcess.Environment, deployment: Deployment,
                           data: DocumentData, teamId: string, lookups: Lookups): (r: IngestResult)
    ensures Validate(data, lookups).Some? <==> r.Rejected?
    ensures r.Rejected? ==> r.message == Validate(data, lookups).value
    ensures r.StatusRecordExists? ==> Present(deployment.triggerSecretKey) && lookups.versionId in store.status.records
    ensures r.StatusRecordExists? ==> r.store.status == store.status && lookups.versionId in r.store.versions
    ensures r.Ingested? ==>
              var t := DocType(data.supportedFileType, lookups.extension);
              && r.document.docType == t
              && (r.document.downloadOnly <==> DownloadOnly(t, data.contentType))
              && r.document.versionId == lookups.versionId
              && r.document.file == data.key
              && r.document.advancedExcelEnabled == data.enableExcelAdvancedMode
  {
    var t := DocType(data.supportedFileType, lookups.extension);
    match Validate(data, lookups)
    case Some(message) => Rejected(message)
    case None =>
      var vid := lookups.versionId;
      var document := DocumentRecord(data.name, data.key, t, data.contentType, DownloadOnly(t, data.contentType),
                                     data.enableExcelAdvancedMode, vid);
      var created := Created(store, data, lookups);
      if !Present(deployment.triggerSecretKey) then
        Ingested(StartLocal(created, env, t, vid, teamId), document, [])
      else
        match StatusStore.Create(created.status, vid, QueuedRecord(WaitingMessage))
        case None => StatusRecordExists(created)
        case Some(db) =>
          var queued := created.(status := db);
          var u := Upload(t, data.contentType, data.key, data.fileSize, teamId, lookups.documentId, vid);
          var jobs := Jobs(u, deployment.loaded);
          var sheet := t == "sheet" && data.enableExcelAdvancedMode;
          var final := if sheet then queued.(versions := queued.versions[vid := queued.versions[vid].(numPages := Some(1))]) else queued;
          Ingested(final, document, jobs)
  }

  // ---------------------------------------------------------------------------
  // What an ingest leaves behind

  /** The internal call is let through exactly when the key is unset, or non-empty and free of spaces. */
  lemma InternalCallAuthorization(env: LocalProcess.Environment, versionId: string, teamId: string)
    ensures LocalProcess.Authorized(env, InternalRequest(env, versionId, teamId)) <==>
              (env.internalApiKey.None? || (env.internalApiKey.value != "" && ' ' !in env.internalApiKey.value))
  {
    var key := env.internalApiKey;
    if key.Some? && key.value != "" {
      if ' ' in key.value {
        LocalProcess.KeyWithSpaceNeverMatches(key.value, Some("Bearer " + key.value));
      } else {
        LocalProcess.BearerOfInternalKey(key.value);
      }
    }
  }

  /** With an empty key no header is sent and the empty key is never matched: the run ends FAILED with "Unauthorized". */
  lemma EmptyInternalKeyFailsEveryRun(store: Store, env: LocalProcess.Environment, versionId: string, teamId: string)
    requires env.internalApiKey == Some("")
    requires versionId in store.status.records
    ensures InternalOutcome(store, env, versionId, teamId).response == LocalProcess.Response(401, LocalProcess.ErrorBody("Unauthorized"))
    ensures var s := ProcessLocalPdf(store, env, versionId, teamId);
            && s.status.records[versionId].status == StatusStore.Failed
            && s.status.records[versionId].message == Some("Unauthorized")
  {
    InternalCallAuthorization(env, versionId, teamId);
  }

  /** `processLocalPdf` keeps every version's file and document, and never clears `isPrimary`. */
  lemma LocalPdfKeepsVersions(store: Store, env: LocalProcess.Environment, versionId: string, teamId: string)
    ensures var s := ProcessLocalPdf(store, env, versionId, teamId);
            && s.versions.Keys == store.versions.Keys
            && forall id :: id in store.versions ==>
                 && s.versions[id].file == store.versions[id].file
                 && s.versions[id].documentId == store.versions[id].documentId
                 && (store.versions[id].isPrimary ==> s.versions[id].isPrimary)
  {
    if versionId in store.status.records {
      var o := InternalOutcome(store, env, versionId, teamId);
      LocalProcess.HandleKeepsVersions(Started(store, versionId), env, InternalRequest(env, versionId, teamId));
      ConcludeKeepsVersions(o, versionId);
    }
  }

  lemma ConcludeKeepsVersions(o: LocalProcess.Outcome, versionId: string)
    ensures Conclude(o, versionId).versions == o.store.versions
  {
  }

  /**
   * A new document's version is recorded with its file and as primary, whatever the mode,
   * and also when the status create then throws: the document was saved before it.
   */
  lemma IngestRecordsVersion(store: Store, env: LocalProcess.Environment, deployment: Deployment,
                             data: DocumentData, teamId: string, lookups: Lookups)
    ensures var r := ProcessDocument(store, env, deployment, data, teamId, lookups);
            (r.Ingested? || r.StatusRecordExists?) ==>
              && lookups.versionId in r.store.versions
              && r.store.versions[lookups.versionId].file == data.key
              && r.store.versions[lookups.versionId].documentId == lookups.documentId
              && r.store.versions[lookups.versionId].isPrimary
  {
    var vid := lookups.versionId;
    var t := DocType(data.supportedFileType, lookups.extension);
    if !Present(deployment.triggerSecretKey) && t == "pdf" {
      LocalPdfKeepsVersions(LocalQueued(Created(store, data, lookups), vid), env, vid, teamId);
    }
  }

  /**
   * Delegated mode creates the QUEUED/0 record (failing when one exists), writes nothing
   * else to the status store, emits the gated jobs, and sets an advanced sheet to one page.
   */
  lemma DelegatedIngest(store: Store, env: LocalProcess.Environment, deployment: Deployment,
                        data: DocumentData, teamId: string, lookups: Lookups)
    requires Present(deployment.triggerSecretKey)
    requires Validate(data, lookups).None?
    ensures var r := ProcessDocument(store, env, deployment, data, teamId, lookups);
            var vid := lookups.versionId;
            var t := DocType(data.supportedFileType, lookups.extension);
            && (r.StatusRecordExists? <==> vid in store.status.records)
            && (r.StatusRecordExists? ==>
                  && r.store.status == store.status
                  && r.store.pages == store.pages
                  && r.store.uploads == store.uploads
                  && r.store.versions[vid].numPages == data.numPages)
            && (r.Ingested? ==>
                  && r.store.status.records == store.status.records[vid := QueuedRecord(WaitingMessage)]
                  && r.store.status.log == store.status.log + [StatusStore.Entry(vid, QueuedRecord(WaitingMessage))]
                  && r.store.pages == store.pages
                  && r.store.uploads == store.uploads
                  && r.jobs == Jobs(Upload(t, data.contentType, data.key, data.fileSize, teamId, lookups.documentId, vid), deployment.loaded)
                  && r.store.versions[vid].numPages == (if t == "sheet" && data.enableExcelAdvancedMode then Some(1) else data.numPages))
  {
  }

  /** Self-hosted, anything but a PDF is queued and then marked ready at once, with no job. */
  lemma LocalNonPdfIngest(store: Store, env: LocalProcess.Environment, deployment: Deployment,
                          data: DocumentData, teamId: string, lookups: Lookups)
    requires !Present(deployment.triggerSecretKey)
    requires Validate(data, lookups).None?
    requires DocType(data.supportedFileType, lookups.extension) != "pdf"
    ensures var r := ProcessDocument(store, env, deployment, data, teamId, lookups);
            var vid := lookups.versionId;
            var before := store.status.log;
            && r.Ingested? && r.jobs == []
            && vid in r.store.status.records
            && var rec := r.store.status.records[vid];
               && rec.status == StatusStore.Completed && rec.progress == 100 && rec.message == Some(ReadyMessage)
               && |r.store.status.log| == |before| + 2 && r.store.status.log[..|before|] == before
               && r.store.status.log[|before|].versionId == vid
               && r.store.status.log[|before|].record.status == StatusStore.Queued
               && r.store.status.log[|before|].record.progress == 0
               && r.store.status.log[|before| + 1] == StatusStore.Entry(vid, rec)
               && r.store.pages == store.pages && r.store.uploads == store.uploads
  {
  }

  /**
   * Self-hosted, a PDF is queued at 0 and then run through `processLocalPdf`; when the
   * internal call succeeds the progress written for the version never goes down,
   * 0, 10, the per-page values, 100.
   */
  lemma LocalPdfIngest(store: Store, env: LocalProcess.Environment, deployment: Deployment,
                       data: DocumentData, teamId: string, lookups: Lookups)
    requires !Present(deployment.triggerSecretKey)
    requires Validate(data, lookups).None?
    requires DocType(data.supportedFileType, lookups.extension) == "pdf"
    ensures var r := ProcessDocument(store, env, deployment, data, teamId, lookups);
            var vid := lookups.versionId;
            var before := store.status.log;
            var queued := LocalQueued(Created(store, data, lookups), vid);
            var o := InternalOutcome(queued, env, vid, teamId);
            && r.Ingested? && r.jobs == []
            && |before| + 3 <= |r.store.status.log| && r.store.status.log[..|before|] == before
            && var added := r.store.status.log[|before|..];
               && added[0].versionId == vid
               && added[0].record.status == StatusStore.Queued && added[0].record.progress == 0
               && added[0].record.message == Some(QueuedMessage)
               && LocalRunLog(r.store, o, before + [added[0]], vid, queued.status.records[vid])
               && (o.response.code == 200 ==> NonDecreasing(Progresses(added)))
  {
    var vid := lookups.versionId;
    var queued := LocalQueued(Created(store, data, lookups), vid);
    LocalPdfIngestRuns(store, env, deployment, data, teamId, lookups);
    var q0 := StatusStore.Entry(vid, queued.status.records[vid]);
    LocalPdfRun(queued, env, vid, teamId);
    RunAfterQueued(ProcessLocalPdf(queued, env, vid, teamId), InternalOutcome(queued, env, vid, teamId),
                   store.status.log, q0, vid, queued.status.records[vid]);
  }

  lemma LocalPdfIngestRuns(store: Store, env: LocalProcess.Environment, deployment: Deployment,
                           data: DocumentData, teamId: string, lookups: Lookups)
    requires !Present(deployment.triggerSecretKey)
    requires Validate(data, lookups).None?
    requires DocType(data.supportedFileType, lookups.extension) == "pdf"
    ensures var r := ProcessDocument(store, env, deployment, data, teamId, lookups);
            var vid := lookups.versionId;
            var queued := LocalQueued(Created(store, data, lookups), vid);
            && r.Ingested? && r.jobs == []
            && r.store == ProcessLocalPdf(queued, env, vid, teamId)
            && vid in queued.status.records
            && queued.status.log == store.status.log + [StatusStore.Entry(vid, queued.status.records[vid])]
            && queued.status.records[vid].status == StatusStore.Queued
            && queued.status.records[vid].progress == 0
            && queued.status.records[vid].message == Some(QueuedMessage)
  {
  }

  /** A local run logged after the QUEUED/0 entry `q0`, seen from the log before `q0`. */
  lemma RunAfterQueued(s: Store, o: LocalProcess.Outcome, before: seq<StatusStore.Entry>, q0: StatusStore.Entry,
                       vid: string, rec: StatusStore.StatusRecord)
    requires LocalRunLog(s, o, before + [q0], vid, rec)
    requires q0.record.progress == 0
    ensures var log := s.status.log;
            && |before| + 3 <= |log| && log[..|before|] == before
            && log[|before|] == q0
            && (o.response.code == 200 ==> NonDecreasing(Progresses(log[|before|..])))
  {
    var log := s.status.log;
    assert log[..|before| + 1] == before + [q0];
    assert log[..|before|] == before;
    var rest := log[|before| + 1..];
    assert log[|before|..] == [q0] + rest;
    if o.response.code == 200 {
      QueuedFirstIsNonDecreasing(q0, rest);
    }
  }

  lemma QueuedFirstIsNonDecreasing(q0: StatusStore.Entry, rest: seq<StatusStore.Entry>)
    requires q0.record.progress == 0
    requires |rest| >= 1 && rest[0].record.progress == 10
    requires NonDecreasing(Progresses(rest))
    ensures NonDecreasing(Progresses([q0] + rest))
  {
    var all := [q0] + rest;
    var ps, qs := Progresses(all), Progresses(rest);
    forall a, b | 0 <= a <= b < |ps|
      ensures ps[a] <= ps[b]
    {
      if a > 0 {
        assert ps[a] == qs[a - 1] && ps[b] == qs[b - 1];
      } else {
        assert ps[b] == 0 || ps[b] == qs[b - 1];
        assert qs[0] == 10;
      }
    }
  }
}

=== FILE: local_process.dfy ===
/**
 * The in-process rasteriser behind `POST /api/local/process-document`: it checks the
 * caller, loads the version and its file, then walks the pages in order. Before each
 * page it writes the progress; a page whose row already exists is skipped, otherwise
 * the page is scaled, encoded in the smaller of PNG and JPEG, uploaded, and recorded.
 * Only a loop that reaches the end finalises the version.
 *
 * The renderer and the blob store are abstract: a parsed document is its list of pages
 * (bounds, the byte lengths of both encodings, the link annotations), and the blob
 * store is a function from upload request to its result.
 */
module LocalProcess {
  import opened Wrappers
  import opened Js
  import opened Http
  import opened Text
  import StatusStore
  import opened Documents
  import opened PageProgress
  import opened PageScale
  import opened PageEncoding
  import opened DocIdPattern

  /** A page's bounding box `[ulx, uly, lrx, lry]` in document units. */
  datatype Bounds = Bounds(ulx: real, uly: real, lrx: real, lry: real)

  /** What the renderer reports for one page at its render scale. */
  datatype SourcePage = SourcePage(bounds: Bounds, pngLength: nat, jpegLength: nat, links: seq<Link>)

  datatype PdfDocument = PdfDocument(pages: seq<SourcePage>)

  /** A stored file either opens as a document or makes the parser throw. */
  datatype FileContent = Pdf(doc: PdfDocument) | Unparsable(reason: string)

  /** The `{ type, data }` the blob store returns; either may come back empty. */
  datatype UploadResult = UploadResult(storageType: JsString, data: JsString)

  /** The deployment: the internal API key, the upload directory, and the blob store. */
  datatype Environment = Environment(
    internalApiKey: Option<string>,
    files: map<string, FileContent>,
    upload: UploadRequest -> UploadResult)

  /** `hasSession` is what the session lookup would answer for this request. */
  datatype Request = Request(verb: Method, authorization: Option<string>, hasSession: bool, documentVersionId: JsString, teamId: JsString)

  datatype Body = Processed(numPages: nat) | ErrorBody(error: string)

  datatype Response = Response(code: int, body: Body)

  datatype Outcome = Outcome(response: Response, store: Store)

  /** The state after some pages, and the error that stopped the loop, if any. */
  datatype Run = Run(store: Store, failure: Option<string>)

  /**
   * The version being rendered, its team, the folder id matched in its file key (the
   * same for every page, so matched once here) and its parsed document.
   */
  datatype Job = Job(versionId: string, teamId: string, docId: Option<string>, doc: PdfDocument)

  function PageCount(job: Job): nat {
    |job.doc.pages|
  }

  function Abs(x: real): real {
    if x < 0.0 then -x else x
  }

  function Width(b: Bounds): real {
    Abs(b.lrx - b.ulx)
  }

  function Height(b: Bounds): real {
    Abs(b.lry - b.uly)
  }

  /** The message written with each page's progress: `處理中... k/N`. */
  function ProcessingMessage(pageNumber: nat, n: nat): string {
    "處理中... " + NatToString(pageNumber) + "/" + NatToString(n)
  }

  function UploadFailure(pageNumber: nat): string {
    "Failed to upload page " + NatToString(pageNumber)
  }

  /** The error an `update` of a missing status row raises. */
  const RecordNotFound: string := "Record to update not found."

  function ProgressPatch(i: nat, n: nat): StatusStore.Patch
    requires i < n
  {
    StatusStore.Patch(None, Some(Progress(i, n)), Some(Some(ProcessingMessage(i + 1, n))), None)
  }

  /** `!data || !type` is false. */
  predicate Accepted(r: UploadResult) {
    Truthy(r.data) && Truthy(r.storageType)
  }

  /** `authHeader?.split(" ")[1]`. */
  function BearerToken(authorization: Option<string>): (t: Option<string>)
    ensures authorization.None? ==> t.None?
    ensures t.Some? ==> ' ' !in t.value && Contains(authorization.value, " " + t.value)
  {
    match authorization
    case None => None
    case Some(h) =>
      var parts := Split(h, ' ');
      if |parts| >= 2 then
        SecondPieceFollowsSpace(parts);
        Some(parts[1])
      else None
  }

  lemma SecondPieceFollowsSpace(parts: seq<string>)
    requires |parts| >= 2
    ensures OccursAt(Join(parts, ' '), " " + parts[1], |parts[0]|)
  {
    var rest := Join(parts[1..], ' ');
    assert Join(parts, ' ') == parts[0] + [' '] + rest;
    if |parts| == 2 {
      assert rest == parts[1];
    } else {
      assert rest == parts[1] + [' '] + Join(parts[2..], ' ');
    }
    assert (parts[0] + [' '] + rest)[|parts[0]|..|parts[0]| + 1 + |parts[1]|] == " " + parts[1];
  }

  /**
   * The session is consulted only when the bearer token differs from the internal key;
   * two absent values are equal, so an unset key lets a request without a header through.
   */
  predicate Authorized(env: Environment, req: Request) {
    BearerToken(req.authorization) == env.internalApiKey || req.hasSession
  }

  /**
   * The image sent to the blob store for page index `i`: the smaller encoding, JPEG on
   * a tie, named and typed after the chosen format.
   */
  function PageUpload(job: Job, i: nat): (u: UploadRequest)
    requires i < PageCount(job)
  {
    var src := job.doc.pages[i];
    var e := Choose(src.pngLength, src.jpegLength);
    UploadRequest(PageFileName(i + 1, e.format), MimeType(e.format), e.byteLength, job.teamId, job.docId)
  }

  /** The upload keeps the smaller encoding and names and types it after the chosen format. */
  lemma PageUploadKeepsSmaller(job: Job, i: nat)
    requires i < PageCount(job)
    ensures var src := job.doc.pages[i];
            var u := PageUpload(job, i);
            && u.byteLength <= src.pngLength && u.byteLength <= src.jpegLength
            && (u.byteLength == src.pngLength || u.byteLength == src.jpegLength)
            && (u.contentType == "image/png" <==> src.pngLength < src.jpegLength)
            && (u.contentType == "image/png" || u.contentType == "image/jpeg")
            && u.name == "page-" + NatToString(i + 1) + "." + u.contentType[|"image/"|..]
            && u.teamId == job.teamId
            && u.docId == job.docId
  {
  }

  /** The row recorded for page index `i` once its upload was accepted. */
  function RenderedPage(job: Job, i: nat, r: UploadResult): (p: DocumentPage)
    requires i < PageCount(job)
    requires Accepted(r)
  {
    var src := job.doc.pages[i];
    var w, h := Width(src.bounds), Height(src.bounds);
    var s := ScaleFactor(w, h);
    DocumentPage(r.data.s, r.storageType.s, src.links, PageMetadata(w, h, w * s, h * s, s))
  }

  /** The recorded page keeps its sizes and links, fits within 8000 pixels, and points at the upload. */
  lemma RenderedPageFits(job: Job, i: nat, r: UploadResult)
    requires i < PageCount(job)
    requires Accepted(r)
    ensures var b := job.doc.pages[i].bounds;
            var p := RenderedPage(job, i, r);
            && p.metadata.originalWidth == Width(b) && p.metadata.originalHeight == Height(b)
            && p.metadata.width <= MaxDimension && p.metadata.height <= MaxDimension
            && 0.0 < p.metadata.scaleFactor <= BaseScale(Width(b))
            && p.metadata.width == Width(b) * p.metadata.scaleFactor
            && p.metadata.height == Height(b) * p.metadata.scaleFactor
            && p.pageLinks == job.doc.pages[i].links
            && p.file == r.data.s && p.storageType == r.storageType.s
  {
  }

  /** The orientation recorded from page 1: taller than wide. */
  function Orientation(job: Job): bool
    requires PageCount(job) >= 1
  {
    var b := job.doc.pages[0].bounds;
    Height(b) > Width(b)
  }

  /** One iteration of the page loop, for page index `i` (page number `i + 1`). */
  function ProcessPage(store: Store, env: Environment, job: Job, i: nat): (r: Run)
    requires i < PageCount(job)
    requires job.versionId in store.versions
    ensures job.versionId in r.store.versions
  {
    var vid := job.versionId;
    var k := i + 1;
    match StatusStore.Update(store.status, vid, ProgressPatch(i, PageCount(job)))
    case None => Run(store, Some(RecordNotFound))
    case Some(status) =>
      var s1 := store.(status := status);
      if PageKey(k, vid) in s1.pages then Run(s1, None)
      else
        var s2 := if k == 1 then s1.(versions := s1.versions[vid := s1.versions[vid].(isVertical := Some(Orientation(job)))]) else s1;
        var u := PageUpload(job, i);
        var res := env.upload(u);
        var s3 := s2.(uploads := s2.uploads + [u]);
        if !Accepted(res) then Run(s3, Some(UploadFailure(k)))
        else Run(s3.(pages := s3.pages[PageKey(k, vid) := RenderedPage(job, i, res)]), None)
  }

  /** The page loop from index `i` to the end, stopping at the first error. */
  function RunPages(store: Store, env: Environment, job: Job, i: nat): (r: Run)
    requires i <= PageCount(job)
    requires job.versionId in store.versions
    ensures job.versionId in r.store.versions
    decreases PageCount(job) - i
  {
    if i == PageCount(job) then Run(store, None)
    else
      var step := ProcessPage(store, env, job, i);
      if step.failure.Some? then step else RunPages(step.store, env, job, i + 1)
  }

  /** Sets the page count and marks the version as having pages and as primary. */
  function Finalise(store: Store, vid: string, n: nat): Store
    requires vid in store.versions
  {
    store.(versions := store.versions[vid := store.versions[vid].(numPages := Some(n), hasPages := true, isPrimary := true)])
  }

  function Reply(store: Store, code: int, error: string): Outcome {
    Outcome(Response(code, ErrorBody(error)), store)
  }

  /** `handler`: the whole request, including the error responses. */
  function Handle(store: Store, env: Environment, req: Request): (o: Outcome)
    ensures req.verb != Post ==> o == Reply(store, 405, "Method not allowed")
    ensures req.verb == Post && !Authorized(env, req) ==> o == Reply(store, 401, "Unauthorized")
    ensures req.verb == Post && Authorized(env, req) && (!Truthy(req.documentVersionId) || !Truthy(req.teamId)) ==>
              o == Reply(store, 400, "Missing documentVersionId or teamId")
    ensures o.response.code == 200 ==> Truthy(req.documentVersionId) && req.documentVersionId.s in store.versions
  {
    if req.verb != Post then Reply(store, 405, "Method not allowed")
    else if !Authorized(env, req) then Reply(store, 401, "Unauthorized")
    else if !Truthy(req.documentVersionId) || !Truthy(req.teamId) then
      Reply(store, 400, "Missing documentVersionId or teamId")
    else
      var vid := req.documentVersionId.s;
      if vid !in store.versions then Reply(store, 404, "Document version not found")
      else
        var file := store.versions[vid].file;
        if file !in env.files then Reply(store, 404, "File not found")
        else
          match env.files[file]
          case Unparsable(reason) => Reply(store, 500, reason)
          case Pdf(doc) =>
            var run := RunPages(store, env, Job(vid, req.teamId.s, DocId(file), doc), 0);
            if run.failure.Some? then Reply(run.store, 500, run.failure.value)
            else Outcome(Response(200, Processed(|doc.pages|)), Finalise(run.store, vid, |doc.pages|))
  }

  // ---------------------------------------------------------------------------
  // Reference definitions of what the loop does, and the lemmas tying it to them

  /** The uploads the loop sends for indices `i` up to `j`: one for each page without a row. */
  function Attempted(pages: map<PageKey, DocumentPage>, job: Job, i: nat, j: nat): (us: seq<UploadRequest>)
    requires i <= j <= PageCount(job)
    decreases j - i
  {
    if i == j then []
    else (if PageKey(i + 1, job.versionId) in pages then [] else [PageUpload(job, i)]) + Attempted(pages, job, i + 1, j)
  }

  /** The record left by the progress write before index `i`. */
  function ProgressRecord(rec: StatusStore.StatusRecord, i: nat, n: nat): StatusStore.StatusRecord
    requires i < n
  {
    rec.(progress := Progress(i, n), message := Some(ProcessingMessage(i + 1, n)))
  }

  /** The status writes the loop makes for indices `i` up to `j`, one per page. */
  function ProgressEntries(rec: StatusStore.StatusRecord, job: Job, i: nat, j: nat): (es: seq<StatusStore.Entry>)
    requires i <= j <= PageCount(job)
    decreases j - i
  {
    if i == j then []
    else [StatusStore.Entry(job.versionId, ProgressRecord(rec, i, PageCount(job)))] + ProgressEntries(rec, job, i + 1, j)
  }

  /** Page `k` (1-based) holds exactly what rendering it and uploading it produces. */
  ghost predicate CreatedAs(env: Environment, job: Job, k: int, page: DocumentPage) {
    && 1 <= k <= PageCount(job)
    && Accepted(env.upload(PageUpload(job, k - 1)))
    && page == RenderedPage(job, k - 1, env.upload(PageUpload(job, k - 1)))
  }

  lemma {:induction false} AttemptedAgrees(p1: map<PageKey, DocumentPage>, p2: map<PageKey, DocumentPage>, job: Job, i: nat, j: nat)
    requires i <= j <= PageCount(job)
    requires forall k :: i < k <= j ==> (PageKey(k, job.versionId) in p1 <==> PageKey(k, job.versionId) in p2)
    ensures Attempted(p1, job, i, j) == Attempted(p2, job, i, j)
    decreases j - i
  {
    if i < j {
      AttemptedAgrees(p1, p2, job, i + 1, j);
    }
  }

  lemma {:induction false} ProgressEntriesOnlyReadStatusAndError(r1: StatusStore.StatusRecord, r2: StatusStore.StatusRecord, job: Job, i: nat, j: nat)
    requires i <= j <= PageCount(job)
    requires r1.status == r2.status && r1.error == r2.error
    ensures ProgressEntries(r1, job, i, j) == ProgressEntries(r2, job, i, j)
    decreases j - i
  {
    if i < j {
      ProgressEntriesOnlyReadStatusAndError(r1, r2, job, i + 1, j);
    }
  }

  /** Entry `t` of the progress writes is the write for index `i + t`. */
  lemma {:induction false} ProgressEntriesAt(rec: StatusStore.StatusRecord, job: Job, i: nat, j: nat)
    requires i <= j <= PageCount(job)
    ensures |ProgressEntries(rec, job, i, j)| == j - i
    ensures forall t :: 0 <= t < j - i ==>
              ProgressEntries(rec, job, i, j)[t] == StatusStore.Entry(job.versionId, ProgressRecord(rec, i + t, PageCount(job)))
    decreases j - i
  {
    if i < j {
      ProgressEntriesAt(rec, job, i + 1, j);
    }
  }

  /** What one iteration does, case by case. */
  lemma ProcessPageCases(store: Store, env: Environment, job: Job, i: nat)
    requires i < PageCount(job)
    requires job.versionId in store.versions
    ensures var r := ProcessPage(store, env, job, i);
            var vid := job.versionId;
            var key := PageKey(i + 1, vid);
            var res := env.upload(PageUpload(job, i));
            && (vid !in store.status.records ==> r == Run(store, Some(RecordNotFound)))
            && (vid in store.status.records ==>
                  && r.store.status == StatusStore.Write(store.status, vid, ProgressRecord(store.status.records[vid], i, PageCount(job)))
                  && (key in store.pages ==> r.failure.None? && r.store.pages == store.pages && r.store.uploads == store.uploads)
                  && (key !in store.pages ==>
                        && r.store.uploads == store.uploads + [PageUpload(job, i)]
                        && (Accepted(res) ==> r.failure.None? && r.store.pages == store.pages[key := RenderedPage(job, i, res)])
                        && (!Accepted(res) ==> r.failure == Some(UploadFailure(i + 1)) && r.store.pages == store.pages)))
  {
  }

  /** Rows already present are kept as they are. */
  lemma {:induction false} RunPagesKeepsPages(store: Store, env: Environment, job: Job, i: nat)
    requires i <= PageCount(job)
    requires job.versionId in store.versions
    ensures KeepsPages(store.pages, RunPages(store, env, job, i).store.pages)
    decreases PageCount(job) - i
  {
    if i < PageCount(job) {
      var step := ProcessPage(store, env, job, i);
      ProcessPageCases(store, env, job, i);
      if step.failure.None? {
        RunPagesKeepsPages(step.store, env, job, i + 1);
      }
    }
  }

  /**
   * Every page row the loop adds is its own version's, past index `i`, and holds what
   * rendering and uploading that page produces.
   */
  lemma {:induction false} RunPagesNewPages(store: Store, env: Environment, job: Job, i: nat)
    requires i <= PageCount(job)
    requires job.versionId in store.versions
    ensures var r := RunPages(store, env, job, i);
            forall key :: key in r.store.pages && key !in store.pages ==>
              key.versionId == job.versionId && i < key.pageNumber && CreatedAs(env, job, key.pageNumber, r.store.pages[key])
    decreases PageCount(job) - i
  {
    if i < PageCount(job) {
      var step := ProcessPage(store, env, job, i);
      ProcessPageCases(store, env, job, i);
      if step.failure.None? {
        RunPagesNewPages(step.store, env, job, i + 1);
        RunPagesKeepsPages(step.store, env, job, i + 1);
        var r := RunPages(step.store, env, job, i + 1);
        forall key | key in r.store.pages && key !in store.pages
          ensures key.versionId == job.versionId && i < key.pageNumber && CreatedAs(env, job, key.pageNumber, r.store.pages[key])
        {
          if key in step.store.pages {
            assert key == PageKey(i + 1, job.versionId);
          }
        }
      }
    }
  }

  /** A loop that finishes leaves a row for every page past index `i`. */
  lemma {:induction false} RunPagesCompletes(store: Store, env: Environment, job: Job, i: nat)
    requires i <= PageCount(job)
    requires job.versionId in store.versions
    ensures var r := RunPages(store, env, job, i);
            r.failure.None? ==> forall k :: i < k <= PageCount(job) ==> PageKey(k, job.versionId) in r.store.pages
    decreases PageCount(job) - i
  {
    if i < PageCount(job) {
      var step := ProcessPage(store, env, job, i);
      ProcessPageCovers(store, env, job, i);
      if step.failure.None? {
        RunPagesCompletes(step.store, env, job, i + 1);
        RunPagesKeepsPages(step.store, env, job, i + 1);
        assert RunPages(store, env, job, i) == RunPages(step.store, env, job, i + 1);
      }
    }
  }

  /** A step that goes on leaves its page with a row. */
  lemma ProcessPageCovers(store: Store, env: Environment, job: Job, i: nat)
    requires i < PageCount(job)
    requires job.versionId in store.versions
    ensures var r := ProcessPage(store, env, job, i);
            r.failure.None? ==> PageKey(i + 1, job.versionId) in r.store.pages
  {
    ProcessPageCases(store, env, job, i);
  }

  /**
   * The uploads the loop sends are those of the pages without a row, in page order,
   * from index `i` up to where it stopped.
   */
  lemma {:induction false} RunPagesUploads(store: Store, env: Environment, job: Job, i: nat)
    requires i <= PageCount(job)
    requires job.versionId in store.versions
    ensures var r := RunPages(store, env, job, i);
            exists j :: && i <= j <= PageCount(job)
                        && r.store.uploads == store.uploads + Attempted(store.pages, job, i, j)
                        && (r.failure.None? ==> j == PageCount(job))
    decreases PageCount(job) - i
  {
    var r := RunPages(store, env, job, i);
    if i == PageCount(job) || job.versionId !in store.status.records {
      assert r.store.uploads == store.uploads + Attempted(store.pages, job, i, i);
    } else {
      var step := ProcessPage(store, env, job, i);
      ProcessPageCases(store, env, job, i);
      var here := Attempted(store.pages, job, i, i + 1);
      assert Attempted(store.pages, job, i + 1, i + 1) == [];
      assert step.store.uploads == store.uploads + here by {
        if PageKey(i + 1, job.versionId) in store.pages {
          assert here == [];
        } else {
          assert here == [PageUpload(job, i)];
        }
      }
      if step.failure.Some? {
        assert r.store.uploads == store.uploads + Attempted(store.pages, job, i, i + 1);
      } else {
        RunPagesUploads(step.store, env, job, i + 1);
        var j :| && i + 1 <= j <= PageCount(job)
                 && r.store.uploads == step.store.uploads + Attempted(step.store.pages, job, i + 1, j)
                 && (r.failure.None? ==> j == PageCount(job));
        AttemptedAgrees(step.store.pages, store.pages, job, i + 1, j);
        AttemptedAfterFirst(store.pages, job, i, j, store.uploads, step.store.uploads, r.store.uploads);
      }
    }
  }

  lemma AttemptedAfterFirst(pages: map<PageKey, DocumentPage>, job: Job, i: nat, j: nat,
                            u0: seq<UploadRequest>, u1: seq<UploadRequest>, u2: seq<UploadRequest>)
    requires i < j <= PageCount(job)
    requires u1 == u0 + Attempted(pages, job, i, i + 1)
    requires u2 == u1 + Attempted(pages, job, i + 1, j)
    ensures u2 == u0 + Attempted(pages, job, i, j)
  {
    AttemptedSplits(pages, job, i, j);
  }

  lemma AttemptedSplits(pages: map<PageKey, DocumentPage>, job: Job, i: nat, j: nat)
    requires i < j <= PageCount(job)
    ensures Attempted(pages, job, i, j) == Attempted(pages, job, i, i + 1) + Attempted(pages, job, i + 1, j)
  {
    assert Attempted(pages, job, i + 1, i + 1) == [];
  }

  /** Without a status record the loop stops at its first write and changes nothing. */
  lemma RunPagesWithoutRecord(store: Store, env: Environment, job: Job, i: nat)
    requires i <= PageCount(job)
    requires job.versionId in store.versions
    requires job.versionId !in store.status.records
    ensures var r := RunPages(store, env, job, i);
            r.store == store && (i < PageCount(job) ==> r.failure == Some(RecordNotFound))
  {
  }

  /**
   * With a status record the loop appends one progress write per page it reaches, each
   * carrying that page's progress and message and the record's status and error.
   */
  lemma {:induction false} RunPagesLog(store: Store, env: Environment, job: Job, i: nat)
    requires i <= PageCount(job)
    requires job.versionId in store.versions
    requires job.versionId in store.status.records
    ensures var r := RunPages(store, env, job, i);
            var rec := store.status.records[job.versionId];
            && r.failure != Some(RecordNotFound)
            && job.versionId in r.store.status.records
            && r.store.status.records[job.versionId].status == rec.status
            && r.store.status.records[job.versionId].error == rec.error
            && exists j :: && i <= j <= PageCount(job)
                           && r.store.status.log == store.status.log + ProgressEntries(rec, job, i, j)
                           && (r.failure.None? ==> j == PageCount(job))
    decreases PageCount(job) - i
  {
    var vid := job.versionId;
    var r := RunPages(store, env, job, i);
    var rec := store.status.records[vid];
    if i == PageCount(job) {
      assert r.store.status.log == store.status.log + ProgressEntries(rec, job, i, i);
    } else {
      var step := ProcessPage(store, env, job, i);
      ProcessPageCases(store, env, job, i);
      var first := StatusStore.Entry(vid, ProgressRecord(rec, i, PageCount(job)));
      assert ProgressEntries(rec, job, i + 1, i + 1) == [];
      assert ProgressEntries(rec, job, i, i + 1) == [first];
      if step.failure.Some? {
        assert step.failure != Some(RecordNotFound) by {
          assert step.failure == Some(UploadFailure(i + 1));
          assert UploadFailure(i + 1)[0] == 'F' != RecordNotFound[0];
        }
        assert r.store.status.log == store.status.log + ProgressEntries(rec, job, i, i + 1);
      } else {
        RunPagesLog(step.store, env, job, i + 1);
        var mrec := step.store.status.records[vid];
        var j :| && i + 1 <= j <= PageCount(job)
                 && r.store.status.log == step.store.status.log + ProgressEntries(mrec, job, i + 1, j)
                 && (r.failure.None? ==> j == PageCount(job));
        ProgressEntriesAfterFirst(rec, mrec, job, i, j, store.status.log, step.store.status.log, r.store.status.log);
      }
    }
  }

  lemma ProgressEntriesAfterFirst(rec: StatusStore.StatusRecord, mrec: StatusStore.StatusRecord, job: Job, i: nat, j: nat,
                                  log0: seq<StatusStore.Entry>, log1: seq<StatusStore.Entry>, log2: seq<StatusStore.Entry>)
    requires i < j <= PageCount(job)
    requires mrec.status == rec.status && mrec.error == rec.error
    requires log1 == log0 + [StatusStore.Entry(job.versionId, ProgressRecord(rec, i, PageCount(job)))]
    requires log2 == log1 + ProgressEntries(mrec, job, i + 1, j)
    ensures log2 == log0 + ProgressEntries(rec, job, i, j)
  {
    ProgressEntriesOnlyReadStatusAndError(mrec, rec, job, i + 1, j);
  }

  /**
   * The loop changes only the version's orientation, and only when it renders page 1
   * (which it does when page 1 has no row and the status record exists); the
   * orientation is written before that page's upload, so even a failed upload keeps it.
   */
  lemma {:induction false} RunPagesVersions(store: Store, env: Environment, job: Job, i: nat)
    requires i <= PageCount(job)
    requires job.versionId in store.versions
    ensures ReorientsOnly(store, RunPages(store, env, job, i).store, job, i)
    decreases PageCount(job) - i
  {
    if i < PageCount(job) {
      var step := ProcessPage(store, env, job, i);
      ProcessPageVersions(store, env, job, i);
      if step.failure.None? {
        RunPagesVersions(step.store, env, job, i + 1);
        ReorientsCompose(store, step.store, RunPages(step.store, env, job, i + 1).store, job, i);
        assert RunPages(store, env, job, i) == RunPages(step.store, env, job, i + 1);
      }
    }
  }

  /** From `before` to `after`, starting at index `i`, the loop has changed at most the version's orientation, as it may. */
  ghost predicate ReorientsOnly(before: Store, after: Store, job: Job, i: nat)
    requires job.versionId in before.versions && job.versionId in after.versions
  {
    var v := before.versions[job.versionId];
    var v' := after.versions[job.versionId];
    && after.versions == before.versions[job.versionId := v.(isVertical := v'.isVertical)]
    && (v'.isVertical != v.isVertical ==> i == 0 && PageKey(1, job.versionId) !in before.pages)
    && (i == 0 < PageCount(job) && PageKey(1, job.versionId) !in before.pages && job.versionId in before.status.records ==>
          v'.isVertical == Some(Orientation(job)))
  }

  /** A first step and the rest of the loop compose: only the first step can reorient. */
  lemma ReorientsCompose(store: Store, next: Store, last: Store, job: Job, i: nat)
    requires job.versionId in store.versions && job.versionId in next.versions && job.versionId in last.versions
    requires ReorientsOnly(store, next, job, i)
    requires ReorientsOnly(next, last, job, i + 1)
    ensures ReorientsOnly(store, last, job, i)
  {
  }

  lemma ProcessPageVersions(store: Store, env: Environment, job: Job, i: nat)
    requires i < PageCount(job)
    requires job.versionId in store.versions
    ensures ReorientsOnly(store, ProcessPage(store, env, job, i).store, job, i)
  {
  }

  /**
   * The loop fails only for a missing status record, or for the first page without a
   * row whose upload came back without data or type, with that page's number.
   */
  lemma {:induction false} RunPagesFailure(store: Store, env: Environment, job: Job, i: nat)
    requires i <= PageCount(job)
    requires job.versionId in store.versions
    ensures var r := RunPages(store, env, job, i);
            r.failure.Some? ==>
              || (r.failure.value == RecordNotFound && job.versionId !in store.status.records)
              || exists k :: && i < k <= PageCount(job)
                             && r.failure.value == UploadFailure(k)
                             && PageKey(k, job.versionId) !in store.pages
                             && !Accepted(env.upload(PageUpload(job, k - 1)))
    decreases PageCount(job) - i
  {
    if i < PageCount(job) {
      var step := ProcessPage(store, env, job, i);
      ProcessPageFailure(store, env, job, i);
      if step.failure.None? {
        RunPagesFailure(step.store, env, job, i + 1);
        FailureCarriesBack(store, step.store, RunPages(step.store, env, job, i + 1).failure, env, job, i);
      }
    }
  }

  /** Why a run from index `i` over `store` stopped with `failure`. */
  ghost predicate FailureExplained(store: Store, env: Environment, job: Job, i: nat, failure: Option<string>) {
    failure.Some? ==>
      || (failure.value == RecordNotFound && job.versionId !in store.status.records)
      || exists k :: && i < k <= PageCount(job)
                     && failure.value == UploadFailure(k)
                     && PageKey(k, job.versionId) !in store.pages
                     && !Accepted(env.upload(PageUpload(job, k - 1)))
  }

  /** A failure explained after a successful step is explained before it. */
  lemma FailureCarriesBack(store: Store, next: Store, failure: Option<string>, env: Environment, job: Job, i: nat)
    requires store.pages.Keys <= next.pages.Keys && job.versionId in next.status.records
    requires FailureExplained(next, env, job, i + 1, failure)
    ensures FailureExplained(store, env, job, i, failure)
  {
    if failure.Some? && failure.value != RecordNotFound {
      var k :| && i + 1 < k <= PageCount(job)
               && failure.value == UploadFailure(k)
               && PageKey(k, job.versionId) !in next.pages
               && !Accepted(env.upload(PageUpload(job, k - 1)));
      assert PageKey(k, job.versionId) !in store.pages;
    }
  }

  /** One step fails only as the loop does, and a step that goes on removes no page. */
  lemma ProcessPageFailure(store: Store, env: Environment, job: Job, i: nat)
    requires i < PageCount(job)
    requires job.versionId in store.versions
    ensures var r := ProcessPage(store, env, job, i);
            && (r.failure.Some? ==>
                  || (r.failure.value == RecordNotFound && job.versionId !in store.status.records)
                  || (&& r.failure.value == UploadFailure(i + 1)
                      && PageKey(i + 1, job.versionId) !in store.pages
                      && !Accepted(env.upload(PageUpload(job, i)))))
            && (r.failure.None? ==> store.pages.Keys <= r.store.pages.Keys && job.versionId in r.store.status.records)
  {
    ProcessPageCases(store, env, job, i);
  }

  /** Over a version whose pages all have rows the loop sends nothing and writes no page. */
  lemma {:induction false} RunPagesOnCompleteVersion(store: Store, env: Environment, job: Job, i: nat)
    requires i <= PageCount(job)
    requires job.versionId in store.versions
    requires forall k :: i < k <= PageCount(job) ==> PageKey(k, job.versionId) in store.pages
    requires i < PageCount(job) ==> job.versionId in store.status.records
    ensures var r := RunPages(store, env, job, i);
            && r.failure.None?
            && r.store.pages == store.pages
            && r.store.uploads == store.uploads
            && r.store.versions == store.versions
    decreases PageCount(job) - i
  {
    if i < PageCount(job) {
      var step := ProcessPage(store, env, job, i);
      assert PageKey(i + 1, job.versionId) in store.pages;
      RunPagesOnCompleteVersion(step.store, env, job, i + 1);
    }
  }

  // ---------------------------------------------------------------------------
  // The handler

  /** The header the pipeline itself sends carries the key back as the bearer token. */
  lemma BearerOfInternalKey(key: string)
    requires ' ' !in key
    ensures BearerToken(Some("Bearer " + key)) == Some(key)
  {
    assert "Bearer " + key == "Bearer" + [' '] + key;
    SplitAfterPiece("Bearer", ' ', key);
    SplitWithoutSeparator(key, ' ');
  }

  /** A key containing a space can never be matched: the token stops at the first space. */
  lemma KeyWithSpaceNeverMatches(key: string, authorization: Option<string>)
    requires ' ' in key
    ensures BearerToken(authorization) != Some(key)
  {
  }

  /**
   * With no key configured, a request whose header is missing or has no space yields no
   * token, equal to the missing key, so it is let through without a session.
   */
  lemma UnsetKeyAdmitsTokenlessRequests(env: Environment, req: Request)
    requires env.internalApiKey.None?
    requires req.authorization.None? || ' ' !in req.authorization.value
    ensures Authorized(env, req)
  {
    if req.authorization.Some? {
      SplitWithoutSeparator(req.authorization.value, ' ');
    }
  }

  /** A successful run renders or keeps every page and then finalises the version. */
  lemma HandleSucceeds(store: Store, env: Environment, req: Request)
    ensures var o := Handle(store, env, req);
            o.response.code == 200 ==>
              var vid := req.documentVersionId.s;
              var v := store.versions[vid];
              && req.verb == Post && Authorized(env, req) && Truthy(req.teamId)
              && v.file in env.files && env.files[v.file].Pdf?
              && var doc := env.files[v.file].doc;
                 var n := |doc.pages|;
                 var job := Job(vid, req.teamId.s, DocId(v.file), doc);
                 && o.response.body == Processed(n)
                 && vid in o.store.versions
                 && o.store.versions[vid] == v.(numPages := Some(n), hasPages := true, isPrimary := true,
                                                 isVertical := o.store.versions[vid].isVertical)
                 && KeepsPages(store.pages, o.store.pages)
                 && (forall k :: 1 <= k <= n ==> PageKey(k, vid) in o.store.pages)
                 && (forall key :: key in o.store.pages && key !in store.pages ==>
                       key.versionId == vid && CreatedAs(env, job, key.pageNumber, o.store.pages[key]))
                 && (n > 0 ==> vid in store.status.records)
  {
    var o := Handle(store, env, req);
    if o.response.code == 200 {
      var vid := req.documentVersionId.s;
      var v := store.versions[vid];
      var doc := env.files[v.file].doc;
      var job := Job(vid, req.teamId.s, DocId(v.file), doc);
      RunPagesKeepsPages(store, env, job, 0);
      RunPagesNewPages(store, env, job, 0);
      RunPagesCompletes(store, env, job, 0);
      RunPagesVersions(store, env, job, 0);
    }
  }

  /** Any response other than 200 leaves the page count and the flags of every version as they were. */
  lemma HandleFailureDoesNotFinalise(store: Store, env: Environment, req: Request)
    ensures var o := Handle(store, env, req);
            o.response.code != 200 ==>
              && o.store.versions.Keys == store.versions.Keys
              && forall id :: id in store.versions ==>
                   && o.store.versions[id].numPages == store.versions[id].numPages
                   && o.store.versions[id].hasPages == store.versions[id].hasPages
                   && o.store.versions[id].isPrimary == store.versions[id].isPrimary
                   && o.store.versions[id].file == store.versions[id].file
  {
    var o := Handle(store, env, req);
    if o.response.code != 200 && req.verb == Post && Authorized(env, req) && Truthy(req.documentVersionId) && Truthy(req.teamId) {
      var vid := req.documentVersionId.s;
      if vid in store.versions && store.versions[vid].file in env.files && env.files[store.versions[vid].file].Pdf? {
        var v := store.versions[vid];
        RunPagesVersions(store, env, Job(vid, req.teamId.s, DocId(v.file), env.files[v.file].doc), 0);
      }
    }
  }

  /** Each failing run answers 500 with the error that stopped it. */
  lemma HandleFailureMessage(store: Store, env: Environment, req: Request)
    requires req.verb == Post && Authorized(env, req) && Truthy(req.documentVersionId) && Truthy(req.teamId)
    requires req.documentVersionId.s in store.versions
    requires store.versions[req.documentVersionId.s].file in env.files
    ensures var o := Handle(store, env, req);
            var vid := req.documentVersionId.s;
            var file := store.versions[vid].file;
            o.response.code != 200 ==>
              && o.response.code == 500
              && (env.files[file].Unparsable? ==> o.response.body == ErrorBody(env.files[file].reason) && o.store == store)
              && (env.files[file].Pdf? ==>
                    var job := Job(vid, req.teamId.s, DocId(file), env.files[file].doc);
                    || (o.response.body == ErrorBody(RecordNotFound) && vid !in store.status.records && o.store == store)
                    || exists k :: && 1 <= k <= PageCount(job)
                                   && o.response.body == ErrorBody(UploadFailure(k))
                                   && PageKey(k, vid) !in store.pages
                                   && !Accepted(env.upload(PageUpload(job, k - 1))))
  {
    var vid := req.documentVersionId.s;
    var file := store.versions[vid].file;
    if env.files[file].Pdf? {
      var job := Job(vid, req.teamId.s, DocId(file), env.files[file].doc);
      RunPagesFailure(store, env, job, 0);
      if vid !in store.status.records {
        RunPagesWithoutRecord(store, env, job, 0);
      } else {
        RunPagesLog(store, env, job, 0);
      }
    }
  }

  /**
   * Running the handler again after a success sends no upload, writes no page and
   * answers the same: every page is found and skipped.
   */
  lemma RerunSendsNothing(store: Store, env: Environment, req: Request)
    requires Handle(store, env, req).response.code == 200
    ensures var first := Handle(store, env, req);
            var second := Handle(first.store, env, req);
            && second.response == first.response
            && second.store.pages == first.store.pages
            && second.store.uploads == first.store.uploads
  {
    var first := Handle(store, env, req);
    var vid := req.documentVersionId.s;
    var v := store.versions[vid];
    var doc := env.files[v.file].doc;
    var job := Job(vid, req.teamId.s, DocId(v.file), doc);
    HandleSucceeds(store, env, req);
    if |doc.pages| > 0 {
      RunPagesLog(store, env, job, 0);
    }
    RunPagesOnCompleteVersion(first.store, env, job, 0);
  }

  /** The handler never removes a version, never changes its file or document, and never clears `isPrimary`. */
  lemma HandleKeepsVersions(store: Store, env: Environment, req: Request)
    ensures var o := Handle(store, env, req);
            && o.store.versions.Keys == store.versions.Keys
            && forall id :: id in store.versions ==>
                 && o.store.versions[id].file == store.versions[id].file
                 && o.store.versions[id].documentId == store.versions[id].documentId
                 && (store.versions[id].isPrimary ==> o.store.versions[id].isPrimary)
  {
    var o := Handle(store, env, req);
    if && req.verb == Post && Authorized(env, req) && Truthy(req.documentVersionId) && Truthy(req.teamId)
       && req.documentVersionId.s in store.versions
       && store.versions[req.documentVersionId.s].file in env.files
       && env.files[store.versions[req.documentVersionId.s].file].Pdf? {
      var vid := req.documentVersionId.s;
      var v := store.versions[vid];
      var job := Job(vid, req.teamId.s, DocId(v.file), env.files[v.file].doc);
      var run := RunPages(store, env, job, 0);
      RunKeepsVersionFields(store, env, job);
      if run.failure.Some? {
        assert o.store == run.store;
      } else {
        assert o.store == Finalise(run.store, vid, PageCount(job));
      }
    } else {
      assert o.store == store;
    }
  }

  /** The page loop, finalised or not, keeps every version's file and document and never clears `isPrimary`. */
  lemma RunKeepsVersionFields(store: Store, env: Environment, job: Job)
    requires job.versionId in store.versions
    ensures var r := RunPages(store, env, job, 0);
            var vid := job.versionId;
            && KeepsVersionFields(store.versions, r.store.versions)
            && KeepsVersionFields(store.versions, Finalise(r.store, vid, PageCount(job)).versions)
  {
    var vid := job.versionId;
    var run := RunPages(store, env, job, 0);
    RunPagesVersions(store, env, job, 0);
    var w := run.store.versions[vid];
    UpdateKeepsVersionFields(store.versions, vid, w);
    UpdateKeepsVersionFields(store.versions, vid, w.(numPages := Some(PageCount(job)), hasPages := true, isPrimary := true));
  }

  /** Replacing one version by one with the same file and document, no less primary, keeps those fields everywhere. */
  lemma UpdateKeepsVersionFields(m: map<string, DocumentVersion>, vid: string, w: DocumentVersion)
    requires vid in m
    requires w.file == m[vid].file && w.documentId == m[vid].documentId && (m[vid].isPrimary ==> w.isPrimary)
    ensures KeepsVersionFields(m, m[vid := w])
  {
  }

  /** `after` has the same versions as `before`, each with its file and document, none less primary. */
  ghost predicate KeepsVersionFields(before: map<string, DocumentVersion>, after: map<string, DocumentVersion>) {
    && after.Keys == before.Keys
    && forall id :: id in before ==>
         && after[id].file == before[id].file
         && after[id].documentId == before[id].documentId
         && (before[id].isPrimary ==> after[id].isPrimary)
  }

  /**
   * A run of progress writes for one version: the status and error stay as they were,
   * and the progress stays within [10, 100] and never goes down.
   */
  ghost predicate ProgressRun(es: seq<StatusStore.Entry>, vid: string, status: StatusStore.State, error: Option<string>) {
    && (forall t :: 0 <= t < |es| ==>
          && es[t].versionId == vid
          && es[t].record.status == status
          && es[t].record.error == error
          && 10 <= es[t].record.progress <= 100)
    && (forall a, b :: 0 <= a <= b < |es| ==> es[a].record.progress <= es[b].record.progress)
  }

  lemma ProgressEntriesAreARun(rec: StatusStore.StatusRecord, job: Job, i: nat, j: nat)
    requires i <= j <= PageCount(job)
    ensures ProgressRun(ProgressEntries(rec, job, i, j), job.versionId, rec.status, rec.error)
  {
    var es := ProgressEntries(rec, job, i, j);
    ProgressEntriesAt(rec, job, i, j);
    forall a, b | 0 <= a <= b < |es|
      ensures es[a].record.progress <= es[b].record.progress
    {
      ProgressIsMonotone(i + a, i + b, PageCount(job));
    }
  }

  /**
   * With a status record for the version, the handler only appends to the status log,
   * and what it appends is a run of progress writes; a success appends one per page.
   */
  lemma HandleLog(store: Store, env: Environment, req: Request)
    requires Truthy(req.documentVersionId) && req.documentVersionId.s in store.status.records
    ensures var o := Handle(store, env, req);
            var before := store.status.log;
            var after := o.store.status.log;
            var vid := req.documentVersionId.s;
            var rec := store.status.records[vid];
            && |before| <= |after| && after[..|before|] == before
            && ProgressRun(after[|before|..], vid, rec.status, rec.error)
            && vid in o.store.status.records
            && o.store.status.records[vid].status == rec.status
            && o.store.status.records[vid].error == rec.error
            && (o.response.code == 200 ==> o.response.body.Processed? && |after| == |before| + o.response.body.numPages)
  {
    var o := Handle(store, env, req);
    var before := store.status.log;
    var vid := req.documentVersionId.s;
    var rec := store.status.records[vid];
    var reached := && req.verb == Post && Authorized(env, req) && Truthy(req.teamId)
                   && vid in store.versions && store.versions[vid].file in env.files
                   && env.files[store.versions[vid].file].Pdf?;
    if !reached {
      assert o.store.status.log[|before|..] == [];
    } else {
      var v := store.versions[vid];
      var job := Job(vid, req.teamId.s, DocId(v.file), env.files[v.file].doc);
      RunPagesLog(store, env, job, 0);
      var r := RunPages(store, env, job, 0);
      var j :| && 0 <= j <= PageCount(job)
               && r.store.status.log == before + ProgressEntries(rec, job, 0, j)
               && (r.failure.None? ==> j == PageCount(job));
      ProgressEntriesAreARun(rec, job, 0, j);
      ProgressEntriesAt(rec, job, 0, j);
      assert o.store.status.log == before + ProgressEntries(rec, job, 0, j);
      assert o.store.status.log[|before|..] == ProgressEntries(rec, job, 0, j);
    }
  }
}

=== FILE: page_views.dfy ===
/**
 * The `/api/analytics/page-view` endpoint: one record per (view, document, page),
 * created on the first report and accumulating reported durations afterwards.
 */
module PageViews {
  import opened Wrappers
  import opened Js
  import opened Http

  datatype PageViewKey = PageViewKey(viewId: string, documentId: string, pageNumber: int)

  datatype PageView = PageView(versionNumber: int, duration: int)

  /** The body fields; a number that is `undefined` in the body is `None`. */
  datatype Report = Report(viewId: JsString, documentId: JsString, pageNumber: Option<int>,
                           versionNumber: Option<int>, duration: Option<int>)

  datatype Body = ErrorBody(error: string) | Recorded(pageView: PageView) | NotAllowed(text: string)

  datatype Outcome = Outcome(code: int, body: Body, db: map<PageViewKey, PageView>)

  /** `!viewId || !documentId || pageNumber === undefined` is false. */
  predicate Complete(r: Report) {
    Truthy(r.viewId) && Truthy(r.documentId) && r.pageNumber.Some?
  }

  function KeyOf(r: Report): PageViewKey
    requires Complete(r)
  {
    PageViewKey(r.viewId.s, r.documentId.s, r.pageNumber.value)
  }

  /** The upsert: increment by `duration || 0`, or create with `versionNumber || 1` and `duration || 0`. */
  function Record(db: map<PageViewKey, PageView>, r: Report): map<PageViewKey, PageView>
    requires Complete(r)
  {
    var key := KeyOf(r);
    if key in db then db[key := db[key].(duration := db[key].duration + NumOr(r.duration, 0))]
    else db[key := PageView(NumOr(r.versionNumber, 1), NumOr(r.duration, 0))]
  }

  /** `handle`. The `updatedAt` stamp is not modelled. */
  function Handle(db: map<PageViewKey, PageView>, verb: Method, r: Report): (o: Outcome)
    ensures verb != Post ==> o == Outcome(405, NotAllowed("Method " + MethodName(verb) + " Not Allowed"), db)
    ensures verb == Post && !Complete(r) ==> o == Outcome(400, ErrorBody("Missing required fields"), db)
    ensures o.code == 200 <==> verb == Post && Complete(r)
    ensures o.code == 200 ==>
              var key := KeyOf(r);
              && o.db.Keys == db.Keys + {key}
              && (forall k :: k in db && k != key ==> o.db[k] == db[k])
              && o.body == Recorded(o.db[key])
              && (key in db ==>
                    && o.db[key].versionNumber == db[key].versionNumber
                    && o.db[key].duration == db[key].duration + NumOr(r.duration, 0))
              && (key !in db ==>
                    o.db[key] == PageView(NumOr(r.versionNumber, 1), NumOr(r.duration, 0)))
  {
    if verb != Post then Outcome(405, NotAllowed("Method " + MethodName(verb) + " Not Allowed"), db)
    else if !Complete(r) then Outcome(400, ErrorBody("Missing required fields"), db)
    else
      var db' := Record(db, r);
      Outcome(200, Recorded(db'[KeyOf(r)]), db')
  }

  /** Page 0 is a page: only an absent page number is refused. */
  lemma PageZeroIsAccepted(db: map<PageViewKey, PageView>, viewId: string, documentId: string,
                           versionNumber: Option<int>, duration: Option<int>)
    requires viewId != "" && documentId != ""
    ensures Handle(db, Post, Report(Str(viewId), Str(documentId), Some(0), versionNumber, duration)).code == 200
  {
  }

  /** Posting a sequence of reports in order. */
  function PostAll(db: map<PageViewKey, PageView>, reports: seq<Report>): map<PageViewKey, PageView>
    decreases |reports|
  {
    if |reports| == 0 then db
    else PostAll(Handle(db, Post, reports[0]).db, reports[1..])
  }

  /** The durations as the handler counts them, a missing or zero value as 0. */
  function TotalDuration(reports: seq<Report>): int
    decreases |reports|
  {
    if |reports| == 0 then 0 else NumOr(reports[0].duration, 0) + TotalDuration(reports[1..])
  }

  /** Every report addresses `key`. */
  predicate AllFor(reports: seq<Report>, key: PageViewKey) {
    forall i :: 0 <= i < |reports| ==> Complete(reports[i]) && KeyOf(reports[i]) == key
  }

  /**
   * After a run of reports for one key, the stored duration has grown by exactly the
   * sum of the reported durations, the version is unchanged, and no other key moved.
   */
  lemma {:induction false} PostsAccumulate(db: map<PageViewKey, PageView>, key: PageViewKey, reports: seq<Report>)
    requires key in db
    requires AllFor(reports, key)
    ensures var after := PostAll(db, reports);
            && after.Keys == db.Keys
            && after[key] == PageView(db[key].versionNumber, db[key].duration + TotalDuration(reports))
            && (forall k :: k in db && k != key ==> after[k] == db[k])
    decreases |reports|
  {
    if |reports| > 0 {
      var next := Handle(db, Post, reports[0]).db;
      assert AllFor(reports[1..], key) by {
        forall i | 0 <= i < |reports[1..]|
          ensures Complete(reports[1..][i]) && KeyOf(reports[1..][i]) == key
        {
          assert reports[1..][i] == reports[i + 1];
        }
      }
      PostsAccumulate(next, key, reports[1..]);
    }
  }

  /**
   * From a fresh key, k reports leave one record whose version is the first report's
   * `versionNumber || 1` and whose duration is the sum of all reported durations.
   */
  lemma FirstPostThenAccumulate(db: map<PageViewKey, PageView>, key: PageViewKey, reports: seq<Report>)
    requires key !in db
    requires |reports| >= 1 && AllFor(reports, key)
    ensures var after := PostAll(db, reports);
            && after.Keys == db.Keys + {key}
            && after[key] == PageView(NumOr(reports[0].versionNumber, 1), TotalDuration(reports))
            && (forall k :: k in db ==> after[k] == db[k])
  {
    var next := Handle(db, Post, reports[0]).db;
    assert AllFor(reports[1..], key) by {
      forall i | 0 <= i < |reports[1..]|
        ensures Complete(reports[1..][i]) && KeyOf(reports[1..][i]) == key
      {
        assert reports[1..][i] == reports[i + 1];
      }
    }
    PostsAccumulate(next, key, reports[1..]);
  }
}

=== FILE: progress.dfy ===
/**
 * The progress the local rasteriser writes before page index `i` of `n`:
 * `Math.round((i / n) * 90) + 10`, with the rounding done in exact arithmetic
 * (`Math.round(x)` is the integer `q` with `q <= x + 1/2 < q + 1`).
 */
module PageProgress {

  /** Euclidean division by a positive divisor is pinned down by its bounds. */
  lemma DivisionByBounds(a: int, d: int, q: int)
    requires d > 0
    requires q * d <= a < q * d + d
    ensures a / d == q
  {
    var q', r := a / d, a % d;
    assert a == q' * d + r && 0 <= r < d;
    if q' < q {
      MultiplyAtLeast(q - q', d);
      assert false;
    } else if q' > q {
      MultiplyAtLeast(q' - q, d);
      assert false;
    }
  }

  lemma MultiplyAtLeast(k: int, d: int)
    requires k >= 1 && d > 0
    ensures k * d >= d
  {
  }

  lemma DivisionIsMonotone(a: int, b: int, d: int)
    requires d > 0 && a <= b
    ensures a / d <= b / d
  {
    var qa, qb := a / d, b / d;
    assert a == qa * d + a % d && b == qb * d + b % d;
    if qa > qb {
      MultiplyAtLeast(qa - qb, d);
      assert false;
    }
  }

  function Progress(i: nat, n: nat): (p: int)
    requires i < n
    ensures 10 <= p <= 100
    ensures p == 100 <==> 180 * i >= 179 * n
    ensures (p - 10) as real <= (90 * i) as real / n as real + 0.5 < (p - 10) as real + 1.0
  {
    var q := (180 * i + n) / (2 * n);
    ProgressQuotient(i, n);
    q + 10
  }

  lemma ProgressQuotient(i: nat, n: nat)
    requires i < n
    ensures var q := (180 * i + n) / (2 * n);
            && 0 <= q <= 90
            && (q == 90 <==> 180 * i >= 179 * n)
            && q as real <= (90 * i) as real / n as real + 0.5 < q as real + 1.0
  {
    var a := 180 * i + n;
    var d := 2 * n;
    var q := a / d;
    var r := a % d;
    assert a == q * d + r && 0 <= r < d;
    DivisionIsMonotone(0, a, d);
    DivisionIsMonotone(a, 180 * n + 2 * n - 1, d);
    DivisionByBounds(180 * n + 2 * n - 1, d, 90);
    if 180 * i >= 179 * n {
      DivisionIsMonotone(180 * n, a, d);
      DivisionByBounds(180 * n, d, 90);
    } else {
      DivisionIsMonotone(a, 180 * n - 1, d);
      DivisionByBounds(180 * n - 1, d, 89);
    }
    RoundingBounds(i, n, q, r);
  }

  lemma RoundingBounds(i: nat, n: nat, q: int, r: int)
    requires 0 < n && 0 <= r < 2 * n
    requires 180 * i + n == q * (2 * n) + r
    ensures q as real <= (90 * i) as real / n as real + 0.5 < q as real + 1.0
  {
    var nr := n as real;
    var y := (90 * i) as real / nr;
    assert y * nr == (90 * i) as real;
    var x := y + 0.5;
    var c := 2.0 * nr;
    assert x * c == (180 * i + n) as real;
    assert (180 * i + n) as real == q as real * c + r as real;
    assert 0.0 <= r as real < c;
    ScaleBack(q as real, x, c);
    ScaleBack(x, q as real + 1.0, c);
  }

  lemma ScaleBack(a: real, b: real, c: real)
    requires c > 0.0
    requires a * c <= b * c
    ensures a <= b
  {
  }

  /** Progress never goes down as the page index grows. */
  lemma ProgressIsMonotone(i: nat, j: nat, n: nat)
    requires i <= j < n
    ensures Progress(i, n) <= Progress(j, n)
  {
    DivisionIsMonotone(180 * i + n, 180 * j + n, 2 * n);
  }

  /** With at most 90 pages every page reports a new, larger value. */
  lemma ProgressIsStrictForSmallDocuments(i: nat, j: nat, n: nat)
    requires i < j < n
    requires n <= 90
    ensures Progress(i, n) < Progress(j, n)
  {
    var a := 180 * i + n;
    var d := 2 * n;
    var q := a / d;
    assert a < q * d + d;
    DivisionIsMonotone(q * d + d, 180 * j + n, d);
    DivisionByBounds(q * d + d, d, q + 1);
  }

  /** Some page is reported at 100 (before the version is finished) exactly when n >= 180. */
  lemma ProgressReachesHundredBeforeLastPage(n: nat)
    requires n >= 1
    ensures Progress(n - 1, n) == 100 <==> n >= 180
    ensures n < 180 ==> forall i :: 0 <= i < n ==> Progress(i, n) < 100
  {
    if n < 180 {
      forall i | 0 <= i < n
        ensures Progress(i, n) < 100
      {
        ProgressIsMonotone(i, n - 1, n);
      }
    }
  }

  /** The progress values written for a document of `n` pages, in page order. */
  function ProgressSequence(n: nat): (ps: seq<int>)
    ensures |ps| == n
  {
    seq(n, i requires 0 <= i < n => Progress(i, n))
  }

  /** A three-page document reports 10, 40 and 70. */
  lemma ThreePageProgress()
    ensures ProgressSequence(3) == [10, 40, 70]
  {
    DivisionByBounds(3, 6, 0);
    DivisionByBounds(183, 6, 30);
    DivisionByBounds(363, 6, 60);
  }
}

=== FILE: progress_token.dfy ===
/**
 * The `/api/progress-token` endpoint: it hands the status bar a public access token
 * scoped to one document version for the delegated job runner, or a null token when
 * the deployment is self-hosted or token generation fails.
 */
module ProgressToken {
  import opened Wrappers
  import opened Js
  import opened Http
  import Text

  /** The JSON bodies the endpoint can send. */
  datatype TokenBody =
    | Refused(error: string)               // `{ error }`
    | SelfHosted                           // `{ publicAccessToken: null, selfHosted: true }`
    | Token(publicAccessToken: string)     // `{ publicAccessToken }`
    | Skipped                              // `{ publicAccessToken: null, error: "Token generation skipped" }`

  datatype TokenResponse = TokenResponse(code: int, body: TokenBody)

  const ScopePrefix: string := "version:"
  const SkippedMessage: string := "Token generation skipped"

  /** The scope the token is generated for. */
  function Scope(versionId: string): string {
    ScopePrefix + versionId
  }

  /** The version a scope names, when it has the `version:` form. */
  function VersionOfScope(scope: string): (v: Option<string>)
    ensures v.Some? ==> Text.StartsWith(scope, ScopePrefix) && scope == ScopePrefix + v.value
  {
    if Text.StartsWith(scope, ScopePrefix) then Some(scope[|ScopePrefix|..]) else None
  }

  /** A scope always names back the version it was made from. */
  lemma ScopeRoundTrip(versionId: string)
    ensures VersionOfScope(Scope(versionId)) == Some(versionId)
  {
    assert Scope(versionId)[..|ScopePrefix|] == ScopePrefix;
    assert Scope(versionId)[|ScopePrefix|..] == versionId;
  }

  /** Two versions never share a scope, so a token cannot cover another version. */
  lemma ScopeIsInjective(v1: string, v2: string)
    requires Scope(v1) == Scope(v2)
    ensures v1 == v2
  {
    ScopeRoundTrip(v1);
    ScopeRoundTrip(v2);
  }

  /**
   * `handle`. `generate` stands for the token generator: `None` when it throws.
   * The method check comes first, then the id check, then the self-hosted shortcut.
   */
  function Handle(verb: Method, query: QueryValue, triggerSecretKey: Option<string>,
                  generate: string -> Option<string>): (r: TokenResponse)
    ensures verb != Get ==> r == TokenResponse(405, Refused("Method not allowed"))
    ensures verb == Get && !IsIdParam(query) ==> r == TokenResponse(400, Refused("Document version ID is required"))
    ensures verb == Get && IsIdParam(query) ==> r.code == 200 && !r.body.Refused?
    ensures r.code == 200 ==> (r.body.SelfHosted? <==> !Present(triggerSecretKey))
    ensures r.body.Token? ==> query.Single? && generate(Scope(query.s)) == Some(r.body.publicAccessToken)
    ensures r.body.Skipped? ==> query.Single? && Present(triggerSecretKey) && generate(Scope(query.s)).None?
  {
    if verb != Get then TokenResponse(405, Refused("Method not allowed"))
    else if !IsIdParam(query) then TokenResponse(400, Refused("Document version ID is required"))
    else if !Present(triggerSecretKey) then TokenResponse(200, SelfHosted)
    else
      match generate(Scope(query.s))
      case Some(token) => TokenResponse(200, Token(token))
      case None => TokenResponse(200, Skipped)
  }
}

=== FILE: publish.dfy ===
/**
 * Page-view publishing: the page-view event schema, the self-hosted writer that turns
 * an event into a page-view increment and a create-only metadata record, and the
 * choice, made once when the module loads, between the analytics service's ingest
 * endpoints and the local fallbacks.
 */
module Publish {
  import opened Wrappers
  import opened Js
  import opened Text
  import PageViews
  import ViewMetadata
  import Http

  // ---------------------------------------------------------------------------
  // The event schema

  /** The optional strings of the schema, each with a default. */
  datatype Detail =
    | Country | City | Region | Latitude | Longitude | Ua
    | Browser | BrowserVersion | Engine | EngineVersion | Os | OsVersion
    | Device | DeviceVendor | DeviceModel | CpuArchitecture | Referer | RefererUrl

  function Default(d: Detail): string {
    match d
    case Device => "Desktop"
    case Referer => "(direct)"
    case RefererUrl => "(direct)"
    case _ => "Unknown"
  }

  const AllDetails: set<Detail> := {
    Country, City, Region, Latitude, Longitude, Ua, Browser, BrowserVersion, Engine, EngineVersion,
    Os, OsVersion, Device, DeviceVendor, DeviceModel, CpuArchitecture, Referer, RefererUrl }

  lemma AllDetailsIsEveryDetail(d: Detail)
    ensures d in AllDetails
  {
  }

  /** A JSON value as the schema sees it; `Fraction` is a number that is not an integer. */
  datatype Json = JStr(s: string) | JInt(i: int) | Fraction | JBool(b: bool) | JNull | JOther

  /**
   * An event as handed in, one slot per schema key, `None` for `undefined`; keys
   * outside the schema are dropped by the parse and are not represented.
   */
  datatype Raw = Raw(
    id: Option<Json>, linkId: Option<Json>, documentId: Option<Json>, viewId: Option<Json>,
    dataroomId: Option<Json>, versionNumber: Option<Json>, time: Option<Json>, duration: Option<Json>,
    pageNumber: Option<Json>, bot: Option<Json>,
    details: map<Detail, Json>)

  const MaxVersion: int := 65535

  /** A parsed event; `details` holds the defaulted strings. */
  datatype PageViewEvent = PageViewEvent(
    id: string, linkId: string, documentId: string, viewId: string,
    dataroomId: JsString,
    versionNumber: int, time: int, duration: int,
    pageNumber: string,
    details: map<Detail, string>,
    bot: Option<bool>)

  /** Every defaulted string has a value, as the inferred event type promises. */
  predicate HasDetails(e: PageViewEvent) {
    forall d: Detail :: d in e.details
  }

  function RequiredString(v: Option<Json>): (r: Option<string>)
    ensures r.Some? <==> v.Some? && v.value.JStr?
  {
    if v.Some? && v.value.JStr? then Some(v.value.s) else None
  }

  function RequiredInt(v: Option<Json>): (r: Option<int>)
    ensures r.Some? <==> v.Some? && v.value.JInt?
  {
    if v.Some? && v.value.JInt? then Some(v.value.i) else None
  }

  /** `z.number().int().min(1).max(65535).optional().default(1)`. */
  function ParseVersion(v: Option<Json>): (r: Option<int>)
    ensures r.Some? ==> 1 <= r.value <= MaxVersion
    ensures v.None? ==> r == Some(1)
    ensures v.Some? ==> (r.Some? <==> v.value.JInt? && 1 <= v.value.i <= MaxVersion)
  {
    match v
    case None => Some(1)
    case Some(j) => if j.JInt? && 1 <= j.i <= MaxVersion then Some(j.i) else None
  }

  /** `z.string().nullable().optional()`. */
  function ParseDataroom(v: Option<Json>): (r: Option<JsString>)
    ensures r.Some? <==> v.None? || v.value.JNull? || v.value.JStr?
    ensures r == Some(Undefined) <==> v.None?
  {
    match v
    case None => Some(Undefined)
    case Some(JNull) => Some(Null)
    case Some(JStr(s)) => Some(Str(s))
    case Some(_) => None
  }

  /** `z.boolean().optional()`. */
  function ParseBot(v: Option<Json>): (r: Option<Option<bool>>)
    ensures r.Some? <==> v.None? || v.value.JBool?
    ensures r.Some? && r.value.Some? ==> v == Some(JBool(r.value.value))
  {
    match v
    case None => Some(None)
    case Some(JBool(b)) => Some(Some(b))
    case Some(_) => None
  }

  /** Every defaulted string that is present is a string. */
  predicate DetailsOk(raw: Raw) {
    forall d: Detail :: d in raw.details ==> raw.details[d].JStr?
  }

  function DetailValue(raw: Raw, d: Detail): string
    requires DetailsOk(raw)
  {
    if d in raw.details then raw.details[d].s else Default(d)
  }

  function Details(raw: Raw): map<Detail, string>
    requires DetailsOk(raw)
  {
    map d | d in AllDetails :: DetailValue(raw, d)
  }

  /** `pageViewSchema.parse`, `None` where it would throw. */
  function ParsePageView(raw: Raw): (r: Option<PageViewEvent>)
    ensures r.Some? ==> 1 <= r.value.versionNumber <= MaxVersion
    ensures r.Some? ==> HasDetails(r.value)
    ensures r.Some? ==> forall d: Detail :: d !in raw.details ==> r.value.details[d] == Default(d)
    ensures r.Some? ==> forall d: Detail :: d in raw.details ==> raw.details[d] == JStr(r.value.details[d])
    ensures r.Some? ==> (raw.versionNumber.None? ==> r.value.versionNumber == 1)
    ensures (RequiredString(raw.viewId).None? || RequiredString(raw.pageNumber).None?
             || RequiredInt(raw.duration).None? || ParseVersion(raw.versionNumber).None?) ==> r.None?
    ensures r.Some? <==>
              && RequiredString(raw.id).Some? && RequiredString(raw.linkId).Some?
              && RequiredString(raw.documentId).Some? && RequiredString(raw.viewId).Some?
              && RequiredString(raw.pageNumber).Some?
              && RequiredInt(raw.time).Some? && RequiredInt(raw.duration).Some?
              && ParseVersion(raw.versionNumber).Some? && ParseDataroom(raw.dataroomId).Some?
              && ParseBot(raw.bot).Some? && DetailsOk(raw)
    ensures r.Some? ==>
              && raw.id == Some(JStr(r.value.id)) && raw.linkId == Some(JStr(r.value.linkId))
              && raw.documentId == Some(JStr(r.value.documentId)) && raw.viewId == Some(JStr(r.value.viewId))
              && raw.pageNumber == Some(JStr(r.value.pageNumber))
              && raw.time == Some(JInt(r.value.time)) && raw.duration == Some(JInt(r.value.duration))
              && (raw.versionNumber.Some? ==> raw.versionNumber == Some(JInt(r.value.versionNumber)))
              && (r.value.bot.None? <==> raw.bot.None?)
              && (r.value.bot.Some? ==> raw.bot == Some(JBool(r.value.bot.value)))
  {
    var id := RequiredString(raw.id);
    var linkId := RequiredString(raw.linkId);
    var documentId := RequiredString(raw.documentId);
    var viewId := RequiredString(raw.viewId);
    var pageNumber := RequiredString(raw.pageNumber);
    var time := RequiredInt(raw.time);
    var duration := RequiredInt(raw.duration);
    var version := ParseVersion(raw.versionNumber);
    var dataroom := ParseDataroom(raw.dataroomId);
    var bot := ParseBot(raw.bot);
    if id.None? || linkId.None? || documentId.None? || viewId.None? || pageNumber.None?
       || time.None? || duration.None? || version.None? || dataroom.None? || bot.None? || !DetailsOk(raw)
    then None
    else
      var details := Details(raw);
      forall d: Detail
        ensures d in details && (d in raw.details ==> raw.details[d] == JStr(details[d]))
      {
        AllDetailsIsEveryDetail(d);
      }
      Some(PageViewEvent(id.value, linkId.value, documentId.value, viewId.value, dataroom.value,
                         version.value, time.value, duration.value, pageNumber.value, details, bot.value))
  }

  /** The events the schema can produce. */
  predicate WellFormed(e: PageViewEvent) {
    1 <= e.versionNumber <= MaxVersion && e.details.Keys == AllDetails
  }

  /** An event as JSON, every defaulted field written out. */
  function Encode(e: PageViewEvent): Raw {
    Raw(Some(JStr(e.id)), Some(JStr(e.linkId)), Some(JStr(e.documentId)), Some(JStr(e.viewId)),
        match e.dataroomId
        case Undefined => None
        case Null => Some(JNull)
        case Str(s) => Some(JStr(s)),
        Some(JInt(e.versionNumber)), Some(JInt(e.time)), Some(JInt(e.duration)), Some(JStr(e.pageNumber)),
        if e.bot.Some? then Some(JBool(e.bot.value)) else None,
        map d | d in e.details :: JStr(e.details[d]))
  }

  /** The schema reads back every event it can produce. */
  lemma ParseEncode(e: PageViewEvent)
    requires WellFormed(e)
    ensures ParsePageView(Encode(e)) == Some(e)
  {
    var raw := Encode(e);
    assert DetailsOk(raw);
    assert Details(raw) == e.details;
  }

  /** A bare event takes every default: version 1, Desktop, `(direct)`, Unknown. */
  lemma BareEventTakesDefaults(id: string, linkId: string, documentId: string, viewId: string,
                               time: int, duration: int, pageNumber: string)
    ensures var raw := Raw(Some(JStr(id)), Some(JStr(linkId)), Some(JStr(documentId)), Some(JStr(viewId)), None, None,
                           Some(JInt(time)), Some(JInt(duration)), Some(JStr(pageNumber)), None, map[]);
            var r := ParsePageView(raw);
            && r.Some?
            && r.value.versionNumber == 1
            && (forall d: Detail :: r.value.details[d] == Default(d))
            && r.value.dataroomId == Undefined && r.value.bot.None?
  {
  }

  // ---------------------------------------------------------------------------
  // The local writer

  datatype AnalyticsDb = AnalyticsDb(pageViews: map<PageViews.PageViewKey, PageViews.PageView>,
                                     metadata: map<string, ViewMetadata.MetadataRecord>)

  /** The metadata a first event for a view creates; the IP is left unset. */
  function MetadataOf(e: PageViewEvent): ViewMetadata.MetadataRecord
    requires HasDetails(e)
  {
    ViewMetadata.MetadataRecord(e.details[Browser], e.details[Os], e.details[Device], None,
                                e.details[Country], e.details[City])
  }

  /**
   * `publishPageViewLocal`: upsert the page view keyed on `parseInt(pageNumber, 10)`,
   * then create the view's metadata if it has none. A page number with no leading
   * digits is NaN, which the database rejects; the error is caught and nothing is written.
   */
  function PublishLocal(db: AnalyticsDb, e: PageViewEvent): (r: AnalyticsDb)
    requires HasDetails(e)
    ensures ParseInt(e.pageNumber).None? ==> r == db
    ensures ParseInt(e.pageNumber).Some? ==>
              var key := PageViews.PageViewKey(e.viewId, e.documentId, ParseInt(e.pageNumber).value);
              && r.pageViews.Keys == db.pageViews.Keys + {key}
              && (forall k :: k in db.pageViews && k != key ==> r.pageViews[k] == db.pageViews[k])
              && r.metadata.Keys == db.metadata.Keys + {e.viewId}
              && (forall v :: v in db.metadata ==> r.metadata[v] == db.metadata[v])
    ensures ParseInt(e.pageNumber).Some? ==>
              var key := PageViews.PageViewKey(e.viewId, e.documentId, ParseInt(e.pageNumber).value);
              && (key in db.pageViews ==>
                    && r.pageViews[key].versionNumber == db.pageViews[key].versionNumber
                    && r.pageViews[key].duration == db.pageViews[key].duration + e.duration)
              && (key !in db.pageViews ==> r.pageViews[key] == PageViews.PageView(NumOr(Some(e.versionNumber), 1), e.duration))
    ensures ParseInt(e.pageNumber).Some? && e.viewId !in db.metadata ==>
              var m := r.metadata[e.viewId];
              && m.browser == e.details[Browser] && m.os == e.details[Os] && m.device == e.details[Device]
              && m.country == e.details[Country] && m.city == e.details[City] && m.ip.None?
  {
    match ParseInt(e.pageNumber)
    case None => db
    case Some(page) =>
      var key := PageViews.PageViewKey(e.viewId, e.documentId, page);
      var views :=
        if key in db.pageViews then
          db.pageViews[key := db.pageViews[key].(duration := db.pageViews[key].duration + e.duration)]
        else db.pageViews[key := PageViews.PageView(if e.versionNumber != 0 then e.versionNumber else 1, e.duration)];
      var metadata := if e.viewId in db.metadata then db.metadata else db.metadata[e.viewId := MetadataOf(e)];
      AnalyticsDb(views, metadata)
  }

  /** The report the page-view endpoint would receive for the same event. */
  function ReportOf(e: PageViewEvent): PageViews.Report {
    PageViews.Report(Str(e.viewId), Str(e.documentId), ParseInt(e.pageNumber), Some(e.versionNumber), Some(e.duration))
  }

  /**
   * For an event with ids and a numeric page, the local writer leaves the page-view
   * table exactly as a POST of the same values to the page-view endpoint would.
   */
  lemma WriterAgreesWithEndpoint(db: AnalyticsDb, e: PageViewEvent)
    requires HasDetails(e)
    requires e.viewId != "" && e.documentId != "" && ParseInt(e.pageNumber).Some?
    ensures PublishLocal(db, e).pageViews == PageViews.Handle(db.pageViews, Http.Post, ReportOf(e)).db
  {
  }

  /**
   * The schema accepts empty ids, which the page-view endpoint refuses: for such an
   * event the local writer still records the page view while the endpoint answers 400.
   */
  lemma WriterAcceptsEmptyViewId(db: AnalyticsDb, e: PageViewEvent)
    requires HasDetails(e)
    requires e.viewId == "" && ParseInt(e.pageNumber).Some?
    ensures PageViews.PageViewKey("", e.documentId, ParseInt(e.pageNumber).value) in PublishLocal(db, e).pageViews
    ensures PageViews.Handle(db.pageViews, Http.Post, ReportOf(e)).code == 400
  {
  }

  /** Publishing events in order. */
  function PublishAll(db: AnalyticsDb, events: seq<PageViewEvent>): AnalyticsDb
    requires forall i :: 0 <= i < |events| ==> HasDetails(events[i])
    decreases |events|
  {
    if |events| == 0 then db else PublishAll(PublishLocal(db, events[0]), events[1..])
  }

  /** Metadata is never overwritten: whatever a view has keeps through any later events. */
  lemma {:induction false} MetadataIsCreateOnly(db: AnalyticsDb, events: seq<PageViewEvent>)
    requires forall i :: 0 <= i < |events| ==> HasDetails(events[i])
    ensures forall v :: v in db.metadata ==> v in PublishAll(db, events).metadata
                                             && PublishAll(db, events).metadata[v] == db.metadata[v]
    decreases |events|
  {
    if |events| > 0 {
      MetadataIsCreateOnly(PublishLocal(db, events[0]), events[1..]);
    }
  }

  /** The first recorded event of a view fixes its metadata for good. */
  lemma FirstMetadataPersists(db: AnalyticsDb, first: PageViewEvent, rest: seq<PageViewEvent>)
    requires HasDetails(first)
    requires forall i :: 0 <= i < |rest| ==> HasDetails(rest[i])
    requires first.viewId !in db.metadata && ParseInt(first.pageNumber).Some?
    ensures var events := [first] + rest;
            && (forall i :: 0 <= i < |events| ==> HasDetails(events[i]))
            && first.viewId in PublishAll(db, events).metadata
            && PublishAll(db, events).metadata[first.viewId] == MetadataOf(first)
  {
    var events := [first] + rest;
    assert events[1..] == rest;
    MetadataIsCreateOnly(PublishLocal(db, first), rest);
  }

  // ---------------------------------------------------------------------------
  // Choosing the exporters

  /** What an exported recorder does when called. */
  datatype Exporter = IngestEndpoint(datasource: string) | LocalWriter | NoOp

  datatype Exports = Exports(publishPageView: Exporter, recordWebhookEvent: Exporter, recordVideoView: Exporter,
                             recordClickEvent: Exporter, recordLinkView: Exporter)

  /**
   * The module's state when its top level has run: the client slot, and the callbacks
   * still waiting. The client is assigned only in the callback of the dynamic import.
   */
  datatype ModuleState = ModuleState(client: bool, pendingLoad: bool)

  /** The synchronous top level: the slot starts empty; with a token, the import is started. */
  function TopLevel(token: Option<string>): ModuleState {
    ModuleState(false, Present(token))
  }

  /** The import's callback, run after the top level: it fills the slot if the import succeeds. */
  function RunPending(s: ModuleState, importSucceeds: bool): ModuleState {
    if s.pendingLoad then ModuleState(importSucceeds, false) else s
  }

  const ServiceExports: Exports := Exports(
    IngestEndpoint("page_views__v3"), IngestEndpoint("webhook_events__v1"), IngestEndpoint("video_views__v1"),
    IngestEndpoint("click_events__v1"), IngestEndpoint("pm_click_events__v1"))

  const LocalExports: Exports := Exports(LocalWriter, NoOp, NoOp, NoOp, NoOp)

  /** `TINYBIRD_ENABLED && tb ? endpoint : fallback`, read from a given module state. */
  function BindFrom(enabled: bool, s: ModuleState): (x: Exports)
    ensures x == ServiceExports || x == LocalExports
  {
    if enabled && s.client then ServiceExports else LocalExports
  }

  /** The exports as written: bound during the top level, before the callback can run. */
  function ExportsAsWritten(token: Option<string>): Exports {
    BindFrom(Present(token), TopLevel(token))
  }

  /** As written, the service endpoints are never used, even with a token and a working import. */
  lemma ServiceIsNeverBound(token: Option<string>)
    ensures ExportsAsWritten(token) == LocalExports
  {
  }

  /** The exports bound once the import has settled, as the comment on `publishPageView` describes. */
  function ExportsAfterLoad(token: Option<string>, importSucceeds: bool): Exports {
    BindFrom(Present(token), RunPending(TopLevel(token), importSucceeds))
  }

  /** Bound after the import, the service is used exactly when a token is set and the import works. */
  lemma ServiceWhenAvailable(token: Option<string>, importSucceeds: bool)
    ensures ExportsAfterLoad(token, importSucceeds) == ServiceExports <==> Present(token) && importSucceeds
    ensures ExportsAfterLoad(token, importSucceeds) == LocalExports <==> !(Present(token) && importSucceeds)
  {
  }
}

=== FILE: scale.dfy ===
/**
 * The render scale for one page. The base scale is 2 for pages at least 1600
 * units wide and 2.95 otherwise; when either scaled side would exceed 8000 pixels
 * the scale becomes `min(8000 / width, 8000 / height)`, where a zero side divides
 * to +Infinity in JavaScript and so never wins the minimum.
 *
 * Arithmetic is exact (reals), not IEEE doubles.
 */
module PageScale {

  const MaxDimension: real := 8000.0
  const WideThreshold: real := 1600.0

  function BaseScale(width: real): (s: real)
    ensures s == 2.0 || s == 2.95
    ensures s == 2.0 <==> width >= WideThreshold
  {
    if width >= WideThreshold then 2.0 else 2.95
  }

  function Min(a: real, b: real): real {
    if a <= b then a else b
  }

  /** The largest scale not above the base that keeps both sides within 8000 pixels. */
  function ScaleFactor(width: real, height: real): (s: real)
    requires width >= 0.0 && height >= 0.0
    ensures 0.0 < s <= BaseScale(width)
    ensures width * s <= MaxDimension && height * s <= MaxDimension
    ensures s == BaseScale(width) || width * s == MaxDimension || height * s == MaxDimension
    ensures width * BaseScale(width) <= MaxDimension && height * BaseScale(width) <= MaxDimension
            ==> s == BaseScale(width)
  {
    var base := BaseScale(width);
    if width * base <= MaxDimension && height * base <= MaxDimension then base
    else if width == 0.0 then
      CapIsBelowBase(height, base);
      MaxDimension / height
    else if height == 0.0 then
      CapIsBelowBase(width, base);
      MaxDimension / width
    else
      CappedScale(width, height, base);
      Min(MaxDimension / width, MaxDimension / height)
  }

  lemma CapIsBelowBase(side: real, base: real)
    requires side > 0.0 && base > 0.0
    requires side * base > MaxDimension
    ensures 0.0 < MaxDimension / side < base
    ensures side * (MaxDimension / side) == MaxDimension
  {
    var c := MaxDimension / side;
    assert side * c == MaxDimension;
  }

  lemma CappedScale(width: real, height: real, base: real)
    requires width > 0.0 && height > 0.0 && base > 0.0
    requires width * base > MaxDimension || height * base > MaxDimension
    ensures var s := Min(MaxDimension / width, MaxDimension / height);
            && 0.0 < s < base
            && width * s <= MaxDimension && height * s <= MaxDimension
            && (width * s == MaxDimension || height * s == MaxDimension)
  {
    var cw := MaxDimension / width;
    var ch := MaxDimension / height;
    assert width * cw == MaxDimension && height * ch == MaxDimension;
    if width * base > MaxDimension {
      CapIsBelowBase(width, base);
    } else {
      CapIsBelowBase(height, base);
    }
    if cw <= ch {
      assert height * cw <= height * ch;
    } else {
      assert width * ch <= width * cw;
    }
  }

  /** No admissible scale is larger: any `t` within the base and the cap is at most the chosen one. */
  lemma ScaleFactorIsLargest(width: real, height: real, t: real)
    requires width >= 0.0 && height >= 0.0
    requires 0.0 < t <= BaseScale(width)
    requires width * t <= MaxDimension && height * t <= MaxDimension
    ensures t <= ScaleFactor(width, height)
  {
    var s := ScaleFactor(width, height);
    if s != BaseScale(width) {
      if width * s == MaxDimension {
        assert width > 0.0;
      } else {
        assert height * s == MaxDimension && height > 0.0;
      }
    }
  }
}

=== FILE: status_bar.dfy ===
/**
 * The decisions of the file-processing status bar, as pure functions of what it has
 * fetched from `/api/progress-token` and of the job runner's run status: when to poll
 * again, which queued message to show, what to report through `onProcessingChange`,
 * and what to draw.
 */
module StatusBar {
  import opened Wrappers
  import opened Js
  import opened Http
  import ProgressToken

  const QueuedMessages: seq<string> := [
    "Converting document...",
    "Optimizing for viewing...",
    "Preparing preview...",
    "Almost ready..."
  ]

  const ErrorText: string := "Error processing document"
  const ProcessingText: string := "Processing document..."

  /** The response shape the bar reads; every field may be missing. */
  datatype ClientData = ClientData(
    localMode: Option<bool>,
    status: Option<string>,
    progress: Option<int>,
    message: JsString,
    error: JsString,
    publicAccessToken: JsString,
    selfHosted: Option<bool>)

  /** The run as the job runner's realtime hook reports it. */
  datatype RunStatus = RunStatus(state: string, progress: Option<int>, text: JsString)

  /** What the bar draws: nothing, or a progress bar with a value and a caption. */
  datatype View = Hidden | Bar(value: int, text: string, isError: bool)

  /** When the bar asks for the document to be refetched. */
  datatype Refetch = NoRefetch | RefetchNow | RefetchAfterDelay

  datatype Frame = Frame(view: View, refetch: Refetch, processing: Option<bool>)

  /**
   * The data SWR holds after fetching the token endpoint. The shared fetcher throws on
   * a non-2xx answer, which leaves `data` undefined.
   */
  function FromToken(r: ProgressToken.TokenResponse): Option<ClientData> {
    if r.code != 200 then None
    else
      match r.body
      case SelfHosted => Some(ClientData(None, None, None, Undefined, Undefined, Null, Some(true)))
      case Token(t) => Some(ClientData(None, None, None, Undefined, Undefined, Str(t), None))
      case Skipped => Some(ClientData(None, None, None, Undefined, Str(ProgressToken.SkippedMessage), Null, None))
      case Refused(e) => Some(ClientData(None, None, None, Undefined, Str(e), Undefined, None))
  }

  /** `data?.localMode` is truthy. */
  predicate IsLocal(data: Option<ClientData>) {
    data.Some? && data.value.localMode == Some(true)
  }

  /** `data?.status === name`. */
  predicate StatusIs(data: Option<ClientData>, name: string) {
    data.Some? && data.value.status == Some(name)
  }

  // ---------------------------------------------------------------------------
  // Polling

  /** `refreshInterval`: the milliseconds until the next fetch, 0 for none. */
  function RefreshInterval(data: Option<ClientData>): (ms: int)
    ensures ms == 0 || ms == 2000
    ensures ms == 2000 <==> IsLocal(data) && !StatusIs(data, "COMPLETED") && !StatusIs(data, "FAILED")
  {
    if IsLocal(data) && !StatusIs(data, "COMPLETED") && !StatusIs(data, "FAILED") then 2000 else 0
  }

  // ---------------------------------------------------------------------------
  // The rotating queued message

  /** Whether the five-second message timer runs. */
  predicate IsQueued(data: Option<ClientData>, run: RunStatus) {
    if IsLocal(data) then StatusIs(data, "QUEUED") else run.state == "QUEUED"
  }

  /** One timer tick. */
  function NextIndex(i: nat): (j: nat)
    ensures j < |QueuedMessages|
  {
    (i + 1) % |QueuedMessages|
  }

  /** The index after `ticks` timer ticks; the timer only runs while queued. */
  function IndexAfter(i: nat, queued: bool, ticks: nat): (j: nat)
    decreases ticks
  {
    if !queued || ticks == 0 then i else IndexAfter(NextIndex(i), queued, ticks - 1)
  }

  /** While queued, the index moves round the four messages one step per tick; otherwise it stays. */
  lemma {:induction false} IndexAfterTicks(i: nat, queued: bool, ticks: nat)
    requires i < |QueuedMessages|
    ensures IndexAfter(i, queued, ticks) == if queued then (i + ticks) % |QueuedMessages| else i
    ensures IndexAfter(i, queued, ticks) < |QueuedMessages|
    decreases ticks
  {
    if queued && ticks > 0 {
      IndexAfterTicks(NextIndex(i), queued, ticks - 1);
      assert (NextIndex(i) + (ticks - 1)) % 4 == (i + ticks) % 4 by {
        if i == 3 {
          assert NextIndex(i) == 0;
          assert (i + ticks) % 4 == (ticks - 1) % 4 + 0 by {
            assert i + ticks == (ticks - 1) + 4;
          }
        } else {
          assert NextIndex(i) == i + 1;
        }
      }
    }
  }

  // ---------------------------------------------------------------------------
  // onProcessingChange

  /**
   * What the two effects report through `onProcessingChange`, `None` when neither
   * calls it: the local effect when `localMode` is set, the job-runner effect when it
   * is not and a token is present.
   */
  function ProcessingNotice(data: Option<ClientData>, run: RunStatus): (r: Option<bool>)
    ensures r.Some? <==> IsLocal(data) || (data.Some? && Truthy(data.value.publicAccessToken))
    ensures IsLocal(data) ==> (r == Some(true) <==> StatusIs(data, "QUEUED") || StatusIs(data, "PROCESSING"))
    ensures !IsLocal(data) && r.Some? ==> (r.value <==> run.state in ["QUEUED", "EXECUTING"])
  {
    if IsLocal(data) then Some(StatusIs(data, "QUEUED") || StatusIs(data, "PROCESSING"))
    else if data.Some? && Truthy(data.value.publicAccessToken) then Some(run.state == "QUEUED" || run.state == "EXECUTING")
    else None
  }

  /** The local effect refetches the document once the local status reads COMPLETED. */
  predicate EffectRefetches(data: Option<ClientData>) {
    IsLocal(data) && StatusIs(data, "COMPLETED")
  }

  // ---------------------------------------------------------------------------
  // Rendering

  predicate IsErrorState(state: string) {
    state in ["FAILED", "CRASHED", "CANCELED", "SYSTEM_FAILURE"]
  }

  /** The local-mode cascade: COMPLETED, then FAILED or an error, QUEUED, PROCESSING, anything else. */
  function LocalFrame(d: ClientData, index: nat): (f: Frame)
    requires index < |QueuedMessages|
  {
    if d.status == Some("COMPLETED") then Frame(Hidden, NoRefetch, None)
    else if d.status == Some("FAILED") || Truthy(d.error) then
      Frame(Bar(0, Or(d.error, Or(d.message, ErrorText)), true), NoRefetch, None)
    else if d.status == Some("QUEUED") then Frame(Bar(0, QueuedMessages[index], false), NoRefetch, None)
    else if d.status == Some("PROCESSING") then
      Frame(Bar(NumOr(d.progress, 0), Or(d.message, ProcessingText), false), NoRefetch, None)
    else Frame(Hidden, RefetchNow, None)
  }

  /** No token to subscribe with: report not processing, refetch after a second, draw nothing. */
  predicate FallsBack(data: Option<ClientData>) {
    data.Some? && (data.value.selfHosted == Some(true) || data.value.publicAccessToken == Null)
  }

  /** The job-runner cascade: QUEUED without error, error or failed state, COMPLETED, running. */
  function RunFrame(run: RunStatus, runError: Option<string>, index: nat): (f: Frame)
    requires index < |QueuedMessages|
  {
    if run.state == "QUEUED" && runError.None? then Frame(Bar(0, QueuedMessages[index], false), NoRefetch, None)
    else if runError.Some? || IsErrorState(run.state) then
      var text := if runError.Some? && runError.value != "" then runError.value else Or(run.text, ErrorText);
      Frame(Bar(0, text, true), NoRefetch, None)
    else if run.state == "COMPLETED" then Frame(Hidden, RefetchNow, None)
    else Frame(Bar(NumOr(run.progress, 0), Or(run.text, ProcessingText), false), NoRefetch, None)
  }

  /**
   * The component's render. `runError` is the message of the hook's error, when there
   * is one; `index` is the current queued-message index.
   */
  function Render(data: Option<ClientData>, run: RunStatus, runError: Option<string>, index: nat): (f: Frame)
    requires index < |QueuedMessages|
    ensures f.view.Bar? ==> f.view.text != ""
    ensures f.view.Bar? && f.view.isError ==> f.view.value == 0
    ensures f.processing.Some? <==> !IsLocal(data) && FallsBack(data)
    ensures f.processing.Some? ==> f.processing.value == false && f.view == Hidden && f.refetch == RefetchAfterDelay
    ensures IsLocal(data) ==>
              && (f.view.Bar? && f.view.isError <==>
                    !StatusIs(data, "COMPLETED") && (StatusIs(data, "FAILED") || Truthy(data.value.error)))
              && (f.view == Hidden <==>
                    StatusIs(data, "COMPLETED")
                    || (!Truthy(data.value.error) && !StatusIs(data, "FAILED")
                        && !StatusIs(data, "QUEUED") && !StatusIs(data, "PROCESSING")))
              && (f.refetch == RefetchNow <==> f.view == Hidden && !StatusIs(data, "COMPLETED"))
    ensures IsLocal(data) && f.view.Bar? && f.view.isError ==>
              f.view == Bar(0, Or(data.value.error, Or(data.value.message, ErrorText)), true)
    ensures IsLocal(data) && StatusIs(data, "QUEUED") && !Truthy(data.value.error) ==>
              f.view == Bar(0, QueuedMessages[index], false)
    ensures IsLocal(data) && StatusIs(data, "PROCESSING") && !Truthy(data.value.error) ==>
              f.view == Bar(NumOr(data.value.progress, 0), Or(data.value.message, ProcessingText), false)
    ensures !IsLocal(data) && !FallsBack(data) && f.view.Bar? && f.view.isError ==>
              f.view == Bar(0, if runError.Some? && runError.value != "" then runError.value else Or(run.text, ErrorText), true)
    ensures !IsLocal(data) && !FallsBack(data) && run.state == "QUEUED" && runError.None? ==>
              f.view == Bar(0, QueuedMessages[index], false)
    ensures !IsLocal(data) && !FallsBack(data) && runError.None? && !IsErrorState(run.state)
            && run.state != "QUEUED" && run.state != "COMPLETED" ==>
              f.view == Bar(NumOr(run.progress, 0), Or(run.text, ProcessingText), false)
    ensures !IsLocal(data) && !FallsBack(data) ==>
              && (f.view.Bar? && f.view.isError <==>
                    !(run.state == "QUEUED" && runError.None?) && (runError.Some? || IsErrorState(run.state)))
              && (f.view == Hidden <==> run.state == "COMPLETED" && runError.None?)
              && (f.view == Hidden <==> f.refetch == RefetchNow)
  {
    if IsLocal(data) then LocalFrame(data.value, index)
    else if FallsBack(data) then Frame(Hidden, RefetchAfterDelay, Some(false))
    else RunFrame(run, runError, index)
  }

  /** A queued bar shows the message the timer has reached. */
  lemma QueuedCaption(data: Option<ClientData>, run: RunStatus, runError: Option<string>, ticks: nat)
    requires IsQueued(data, run) && !FallsBack(data)
    requires !IsLocal(data) ==> runError.None?
    requires IsLocal(data) ==> !Truthy(data.value.error)
    ensures var i := IndexAfter(0, true, ticks);
            i < |QueuedMessages| &&
            Render(data, run, runError, i).view == Bar(0, QueuedMessages[ticks % |QueuedMessages|], false)
  {
    IndexAfterTicks(0, true, ticks);
  }

  // ---------------------------------------------------------------------------
  // The bar against the endpoint it fetches

  /** Nothing the token endpoint sends sets `localMode` or a status. */
  lemma TokenDataIsNeverLocal(verb: Method, query: QueryValue, key: Option<string>, generate: string -> Option<string>)
    ensures var data := FromToken(ProgressToken.Handle(verb, query, key, generate));
            data.None? || (data.value.localMode.None? && data.value.status.None?)
  {
  }

  /**
   * Fetched from the token endpoint, the bar never polls and never takes its local
   * branch: what it draws and reports depends on the job runner alone, or, without a
   * token, is nothing at all.
   */
  lemma LocalBranchIsUnreachable(verb: Method, query: QueryValue, key: Option<string>,
                                 generate: string -> Option<string>,
                                 run: RunStatus, runError: Option<string>, index: nat)
    requires index < |QueuedMessages|
    ensures var data := FromToken(ProgressToken.Handle(verb, query, key, generate));
            && RefreshInterval(data) == 0
            && !EffectRefetches(data)
            && (ProcessingNotice(data, run).Some? ==> data.Some? && Truthy(data.value.publicAccessToken))
            && Render(data, run, runError, index)
               == (if FallsBack(data) then Frame(Hidden, RefetchAfterDelay, Some(false)) else RunFrame(run, runError, index))
  {
    TokenDataIsNeverLocal(verb, query, key, generate);
  }

  /**
   * In a self-hosted deployment the bar shows nothing for a valid request: the
   * endpoint's null token sends it to the fallback, whatever the local pipeline writes.
   */
  lemma SelfHostedShowsNothing(query: QueryValue, key: Option<string>, generate: string -> Option<string>,
                               run: RunStatus, runError: Option<string>, index: nat)
    requires IsIdParam(query) && !Present(key)
    requires index < |QueuedMessages|
    ensures var data := FromToken(ProgressToken.Handle(Get, query, key, generate));
            Render(data, run, runError, index) == Frame(Hidden, RefetchAfterDelay, Some(false))
            && ProcessingNotice(data, run).None?
  {
  }
}

=== FILE: status_store.dfy ===
/**
 * The processing-status store: one record per document version (lifecycle state,
 * integer progress, optional message and error), the database writes the pipeline
 * performs on it, and the `/api/analytics/processing-status` endpoint that reads it
 * and applies partial updates.
 *
 * Every write appends the record it leaves behind to a log, so that the sequence of
 * states a version goes through can be stated.
 */
module StatusStore {
  import opened Wrappers
  import opened Js
  import opened Http

  datatype State = Queued | Processing | Completed | Failed

  function StateName(s: State): string {
    match s
    case Queued => "QUEUED"
    case Processing => "PROCESSING"
    case Completed => "COMPLETED"
    case Failed => "FAILED"
  }

  /** The enum value a status string denotes; any other string is rejected by the database. */
  function ParseState(name: string): (r: Option<State>)
    ensures r.Some? ==> StateName(r.value) == name
    ensures forall s: State :: name == StateName(s) ==> r == Some(s)
  {
    if name == "QUEUED" then Some(Queued)
    else if name == "PROCESSING" then Some(Processing)
    else if name == "COMPLETED" then Some(Completed)
    else if name == "FAILED" then Some(Failed)
    else None
  }

  datatype StatusRecord = StatusRecord(status: State, progress: int, message: Option<string>, error: Option<string>)

  datatype Entry = Entry(versionId: string, record: StatusRecord)

  datatype Db = Db(records: map<string, StatusRecord>, log: seq<Entry>)

  /**
   * The data of a partial update: `None` leaves a field as it is; for `message` and
   * `error`, `Some(None)` writes null.
   */
  datatype Patch = Patch(status: Option<State>, progress: Option<int>, message: Option<Option<string>>, error: Option<Option<string>>)

  function Apply(r: StatusRecord, p: Patch): StatusRecord {
    StatusRecord(
      p.status.GetOr(r.status),
      p.progress.GetOr(r.progress),
      p.message.GetOr(r.message),
      p.error.GetOr(r.error))
  }

  function Write(db: Db, id: string, r: StatusRecord): Db {
    Db(db.records[id := r], db.log + [Entry(id, r)])
  }

  /** `update` by version id: fails (the database throws) when there is no record. */
  function Update(db: Db, id: string, p: Patch): Option<Db> {
    if id in db.records then Some(Write(db, id, Apply(db.records[id], p))) else None
  }

  /** `create`: fails (unique-key violation) when a record already exists. */
  function Create(db: Db, id: string, r: StatusRecord): Option<Db> {
    if id in db.records then None else Some(Write(db, id, r))
  }

  /** `upsert`: apply `p` to an existing record, else store `r`. */
  function Upsert(db: Db, id: string, p: Patch, r: StatusRecord): Db {
    if id in db.records then Write(db, id, Apply(db.records[id], p)) else Write(db, id, r)
  }

  /** Every write keeps the records of other versions and extends the log by one entry. */
  lemma WriteIsLocal(db: Db, id: string, r: StatusRecord, other: string)
    requires other != id
    ensures other in Write(db, id, r).records <==> other in db.records
    ensures other in db.records ==> Write(db, id, r).records[other] == db.records[other]
    ensures Write(db, id, r).records[id] == r
    ensures Write(db, id, r).log == db.log + [Entry(id, r)]
  {
  }

  // ---------------------------------------------------------------------------
  // The endpoint

  /** The JSON body of a POST: each field may be absent; `message` and `error` may be null. */
  datatype StatusBody = StatusBody(status: JsString, progress: Option<int>, message: JsString, error: JsString)

  datatype ReplyBody =
    | StatusView(status: State, progress: int, message: Option<string>, error: Option<string>)
    | Saved(record: StatusRecord)
    | ErrorMessage(text: string)
    | NotAllowed(allow: seq<string>)

  datatype Reply = Reply(code: int, body: ReplyBody)

  datatype Outcome = Outcome(reply: Reply, db: Db)

  /** What a reader sees: a missing record means the version predates tracking and is done. */
  function View(db: Db, id: string): ReplyBody {
    if id in db.records then
      var r := db.records[id];
      StatusView(r.status, r.progress, r.message, r.error)
    else StatusView(Completed, 100, None, None)
  }

  /** The update half of the upsert: only truthy status and defined fields are written. */
  function UpdatePatch(b: StatusBody, status: Option<State>): Patch {
    Patch(
      status,
      b.progress,
      if b.message.Undefined? then None else Some(Stored(b.message)),
      if b.error.Undefined? then None else Some(Stored(b.error)))
  }

  /** The create half of the upsert: falsy fields take their defaults. */
  function CreateRecord(b: StatusBody, status: Option<State>): StatusRecord {
    StatusRecord(status.GetOr(Queued), NumOr(b.progress, 0), OrNull(b.message), OrNull(b.error))
  }

  /**
   * `handle`: a missing or non-string id is refused for every method; GET reads,
   * POST upserts, anything else is not allowed. A truthy status that is not one of
   * the four states is rejected by the database, which the handler reports as 500.
   */
  function Handle(db: Db, verb: Method, query: QueryValue, body: StatusBody): (o: Outcome)
    ensures !IsIdParam(query) ==> o.reply.code == 400 && o.db == db
    ensures IsIdParam(query) && verb.OtherMethod? ==> o.reply.code == 405 && o.db == db
    ensures verb == Get ==> o.db == db
    ensures IsIdParam(query) && verb == Get && query.s !in db.records ==>
              o.reply == Reply(200, StatusView(Completed, 100, None, None))
    ensures IsIdParam(query) && verb == Get && query.s in db.records ==>
              (var r := db.records[query.s];
               o.reply == Reply(200, StatusView(r.status, r.progress, r.message, r.error)))
    ensures IsIdParam(query) && verb == Post && o.reply.code == 200 ==>
              (var id := query.s;
               && o.db.records.Keys == db.records.Keys + {id}
               && (forall other :: other in db.records && other != id ==> o.db.records[other] == db.records[other])
               && o.reply.body == Saved(o.db.records[id]))
    ensures IsIdParam(query) && verb == Post && o.reply.code == 200 && query.s in db.records ==>
              (var before := db.records[query.s];
               var after := o.db.records[query.s];
               && (Truthy(body.status) ==> Some(after.status) == ParseState(body.status.s))
               && (!Truthy(body.status) ==> after.status == before.status)
               && (body.progress.Some? ==> after.progress == body.progress.value)
               && (body.progress.None? ==> after.progress == before.progress)
               && (!body.message.Undefined? ==> after.message == Stored(body.message))
               && (body.message.Undefined? ==> after.message == before.message)
               && (!body.error.Undefined? ==> after.error == Stored(body.error))
               && (body.error.Undefined? ==> after.error == before.error))
    ensures IsIdParam(query) && verb == Post && o.reply.code == 200 && query.s !in db.records ==>
              (var after := o.db.records[query.s];
               && (Truthy(body.status) ==> Some(after.status) == ParseState(body.status.s))
               && (!Truthy(body.status) ==> after.status == Queued)
               && after.progress == NumOr(body.progress, 0)
               && after.message == OrNull(body.message)
               && after.error == OrNull(body.error))
    ensures IsIdParam(query) && verb == Post ==>
              (o.reply.code == 200 <==> !Truthy(body.status) || ParseState(body.status.s).Some?)
  {
    if !IsIdParam(query) then
      Outcome(Reply(400, ErrorMessage("Missing documentVersionId")), db)
    else
      var id := query.s;
      match verb
      case Get => Outcome(Reply(200, View(db, id)), db)
      case Post =>
        var status := if Truthy(body.status) then ParseState(body.status.s) else None;
        if Truthy(body.status) && status.None? then
          Outcome(Reply(500, ErrorMessage("Failed to update processing status")), db)
        else
          var db' := Upsert(db, id, UpdatePatch(body, status), CreateRecord(body, status));
          Outcome(Reply(200, Saved(db'.records[id])), db')
      case OtherMethod(_) => Outcome(Reply(405, NotAllowed(["GET", "POST"])), db)
  }

  /** A body that defines every field, with a valid status and a message that is not "". */
  predicate FullBody(b: StatusBody) {
    && Truthy(b.status) && ParseState(b.status.s).Some?
    && b.progress.Some?
    && !b.message.Undefined? && b.message != Str("")
    && !b.error.Undefined? && b.error != Str("")
  }

  /** A GET after a POST of a full body returns exactly what was posted, whether or not a record existed. */
  lemma PostThenGet(db: Db, query: QueryValue, body: StatusBody)
    requires IsIdParam(query)
    requires FullBody(body)
    ensures var posted := Handle(db, Post, query, body);
            && posted.reply.code == 200
            && Handle(posted.db, Get, query, body).reply
               == Reply(200, StatusView(ParseState(body.status.s).value, body.progress.value,
                                        Stored(body.message), Stored(body.error)))
  {
  }

  /** No transition is checked: a terminal record is overwritten by any valid truthy status. */
  lemma TerminalStatesAreNotFinal(db: Db, id: string, target: State)
    requires id != ""
    requires id in db.records && db.records[id].status in {Completed, Failed}
    ensures var body := StatusBody(Str(StateName(target)), None, Undefined, Undefined);
            var o := Handle(db, Post, Single(id), body);
            o.reply.code == 200 && o.db.records[id].status == target
  {
  }

  /** The create path turns an empty message into null, the update path stores it as "". */
  lemma EmptyMessageDependsOnPath(db: Db, id: string)
    requires id != ""
    ensures var body := StatusBody(Undefined, None, Str(""), Undefined);
            var o := Handle(db, Post, Single(id), body);
            o.db.records[id].message == (if id in db.records then Some("") else None)
  {
  }
}

=== FILE: text.dfy ===
/**
 * The string operations the handlers rely on, with the JavaScript meaning of each:
 * `includes`, `startsWith`, `split` on one character, decimal rendering of a
 * non-negative integer (template literals) and `parseInt(s, 10)`.
 */
module Text {
  import opened Wrappers

  predicate IsDigit(c: char) {
    '0' <= c <= '9'
  }

  predicate AllDigits(s: string) {
    forall k :: 0 <= k < |s| ==> IsDigit(s[k])
  }

  /** `s.startsWith(prefix)`. */
  predicate StartsWith(s: string, prefix: string) {
    |prefix| <= |s| && s[..|prefix|] == prefix
  }

  /** `sub` occurs in `s` starting at index `i`. */
  predicate OccursAt(s: string, sub: string, i: int) {
    0 <= i && i + |sub| <= |s| && s[i..i + |sub|] == sub
  }

  /** `s.includes(sub)`. */
  predicate Contains(s: string, sub: string) {
    exists i :: 0 <= i <= |s| && OccursAt(s, sub, i)
  }

  // ---------------------------------------------------------------------------
  // split / join on a single separator character

  /** `parts.join(sep)`. */
  function Join(parts: seq<string>, sep: char): string
    decreases |parts|
  {
    if |parts| == 0 then ""
    else if |parts| == 1 then parts[0]
    else parts[0] + [sep] + Join(parts[1..], sep)
  }

  /**
   * `s.split(sep)` for a one-character separator: never empty, no piece holds the
   * separator, and joining the pieces back gives `s`.
   */
  function Split(s: string, sep: char): (parts: seq<string>)
    ensures |parts| >= 1
    ensures forall k :: 0 <= k < |parts| ==> sep !in parts[k]
    ensures Join(parts, sep) == s
    decreases |s|
  {
    if |s| == 0 then [""]
    else
      var rest := Split(s[1..], sep);
      if s[0] == sep then
        assert s == [sep] + s[1..];
        [""] + rest
      else
        var parts := [[s[0]] + rest[0]] + rest[1..];
        assert parts[1..] == rest[1..];
        assert s == [s[0]] + s[1..];
        parts
  }

  lemma {:induction false} SplitWithoutSeparator(p: string, sep: char)
    requires sep !in p
    ensures Split(p, sep) == [p]
    decreases |p|
  {
    if |p| > 0 {
      SplitWithoutSeparator(p[1..], sep);
      assert [p[0]] + p[1..] == p;
    }
  }

  lemma {:induction false} SplitAfterPiece(p: string, sep: char, t: string)
    requires sep !in p
    ensures Split(p + [sep] + t, sep) == [p] + Split(t, sep)
    decreases |p|
  {
    var s := p + [sep] + t;
    if |p| == 0 {
      assert s[1..] == t;
    } else {
      assert s[1..] == p[1..] + [sep] + t;
      SplitAfterPiece(p[1..], sep, t);
      assert [p[0]] + p[1..] == p;
    }
  }

  /** Splitting undoes joining pieces that do not hold the separator. */
  lemma {:induction false} SplitOfJoin(parts: seq<string>, sep: char)
    requires |parts| >= 1
    requires forall k :: 0 <= k < |parts| ==> sep !in parts[k]
    ensures Split(Join(parts, sep), sep) == parts
    decreases |parts|
  {
    if |parts| == 1 {
      SplitWithoutSeparator(parts[0], sep);
    } else {
      SplitAfterPiece(parts[0], sep, Join(parts[1..], sep));
      SplitOfJoin(parts[1..], sep);
      assert [parts[0]] + parts[1..] == parts;
    }
  }

  /** `s.split(sep)[0]`: the text before the first separator. */
  function FirstPiece(s: string, sep: char): (r: string)
    ensures StartsWith(s, r)
    ensures sep !in r
    ensures |r| < |s| ==> s[|r|] == sep
  {
    SplitFirstPiece(s, sep);
    Split(s, sep)[0]
  }

  lemma {:induction false} SplitFirstPiece(s: string, sep: char)
    ensures StartsWith(s, Split(s, sep)[0])
    ensures |Split(s, sep)[0]| < |s| ==> s[|Split(s, sep)[0]|] == sep
    decreases |s|
  {
    if |s| > 0 {
      SplitFirstPiece(s[1..], sep);
    }
  }

  // ---------------------------------------------------------------------------
  // decimal rendering and parseInt

  function DigitChar(d: nat): char
    requires d < 10
  {
    ('0' as int + d) as char
  }

  function DigitValue(c: char): nat
    requires IsDigit(c)
  {
    c as int - '0' as int
  }

  /** The decimal text of `n`, as a template literal `${n}` writes it. */
  function NatToString(n: nat): (s: string)
    ensures |s| >= 1
    ensures AllDigits(s)
    ensures n >= 10 ==> s[0] != '0'
    decreases n
  {
    if n < 10 then [DigitChar(n)]
    else NatToString(n / 10) + [DigitChar(n % 10)]
  }

  /** The number a string of decimal digits denotes. */
  function DigitsValue(s: string): nat
    requires AllDigits(s)
    decreases |s|
  {
    if |s| == 0 then 0
    else 10 * DigitsValue(s[..|s| - 1]) + DigitValue(s[|s| - 1])
  }

  lemma {:induction false} DigitsOfNat(n: nat)
    ensures DigitsValue(NatToString(n)) == n
    decreases n
  {
    if n >= 10 {
      DigitsOfNat(n / 10);
      var s := NatToString(n);
      assert s[..|s| - 1] == NatToString(n / 10);
    }
  }

  /** Decimal rendering is injective: different numbers print differently. */
  lemma NatToStringInjective(m: nat, n: nat)
    requires NatToString(m) == NatToString(n)
    ensures m == n
  {
    DigitsOfNat(m);
    DigitsOfNat(n);
  }

  /**
   * The white space `parseInt` skips before the number: ECMAScript's WhiteSpace (tab,
   * vertical tab, form feed, the byte-order mark and every Unicode space separator)
   * and its LineTerminator code points.
   */
  predicate IsJsWhitespace(c: char) {
    // tab, vertical tab, form feed, byte-order mark
    || c == '\t' || c == '\U{B}' || c == '\U{C}' || c == '\U{FEFF}'
    // the space separators (category Zs)
    || c == ' ' || c == '\U{A0}' || c == '\U{1680}' || ('\U{2000}' <= c <= '\U{200A}')
    || c == '\U{202F}' || c == '\U{205F}' || c == '\U{3000}'
    // line terminators
    || c == '\n' || c == '\r' || c == '\U{2028}' || c == '\U{2029}'
  }

  function TrimStart(s: string): (t: string)
    decreases |s|
  {
    if |s| > 0 && IsJsWhitespace(s[0]) then TrimStart(s[1..]) else s
  }

  /** The longest prefix of `s` made of decimal digits. */
  function DigitPrefix(s: string): (d: string)
    ensures AllDigits(d)
    ensures StartsWith(s, d)
    ensures |d| < |s| ==> !IsDigit(s[|d|])
    decreases |s|
  {
    if |s| > 0 && IsDigit(s[0]) then
      var rest := DigitPrefix(s[1..]);
      assert ([s[0]] + rest)[1..] == rest;
      [s[0]] + rest
    else ""
  }

  /**
   * `parseInt(s, 10)`: skip leading white space, read an optional sign, then the
   * longest run of digits; no digits gives `NaN` (here `None`). Trailing text is ignored.
   */
  function ParseInt(s: string): (r: Option<int>)
  {
    var t := TrimStart(s);
    var negative := |t| > 0 && t[0] == '-';
    var body := if |t| > 0 && (t[0] == '-' || t[0] == '+') then t[1..] else t;
    var d := DigitPrefix(body);
    var magnitude: int := if |d| == 0 then 0 else DigitsValue(d);
    if |d| == 0 then None
    else if negative then Some(-magnitude)
    else Some(magnitude)
  }

  lemma {:induction false} DigitPrefixOfDigits(s: string)
    requires AllDigits(s)
    ensures DigitPrefix(s) == s
    decreases |s|
  {
    if |s| > 0 {
      DigitPrefixOfDigits(s[1..]);
      assert [s[0]] + s[1..] == s;
    }
  }

  /** Leading white space does not change what `parseInt` reads. */
  lemma ParseIntSkipsWhitespace(c: char, s: string)
    requires IsJsWhitespace(c)
    ensures ParseInt([c] + s) == ParseInt(s)
  {
    assert ([c] + s)[1..] == s;
  }

  /** An ideographic space before a page number is skipped: `parseInt("\u30005", 10) == 5`. */
  lemma IdeographicSpaceBeforeNumber()
    ensures ParseInt("\U{3000}5") == Some(5)
  {
    ParseIntSkipsWhitespace('\U{3000}', "5");
    assert "\U{3000}5" == ['\U{3000}'] + "5";
    ParseIntOfNatToString(5);
    assert NatToString(5) == "5";
  }

  /** Reading back a rendered number gives the number: `parseInt(`${n}`, 10) == n`. */
  lemma ParseIntOfNatToString(n: nat)
    ensures ParseInt(NatToString(n)) == Some(n)
  {
    var s := NatToString(n);
    assert TrimStart(s) == s;
    DigitPrefixOfDigits(s);
    DigitsOfNat(n);
  }
}

=== FILE: view_metadata.dfy ===
/**
 * The `/api/analytics/view-metadata` endpoint: it reads the viewer's browser, OS and
 * device from the user-agent header, picks the client IP, and upserts one metadata
 * record per view.
 */
module ViewMetadata {
  import opened Wrappers
  import opened Js
  import opened Http
  import opened Text

  datatype ClientInfo = ClientInfo(browser: string, os: string, device: string)

  const Unknown: string := "Unknown"

  // ---------------------------------------------------------------------------
  // User agent

  /** The browser cascade: Chrome without `Edg`, Firefox, Safari without Chrome, Edge, IE. */
  function Browser(ua: string): string {
    if Contains(ua, "Chrome") && !Contains(ua, "Edg") then "Chrome"
    else if Contains(ua, "Firefox") then "Firefox"
    else if Contains(ua, "Safari") && !Contains(ua, "Chrome") then "Safari"
    else if Contains(ua, "Edg") then "Edge"
    else if Contains(ua, "MSIE") || Contains(ua, "Trident") then "IE"
    else Unknown
  }

  /** The OS cascade: Windows, `Mac OS`, Linux without Android, Android, the iOS names. */
  function Os(ua: string): string {
    if Contains(ua, "Windows") then "Windows"
    else if Contains(ua, "Mac OS") then "macOS"
    else if Contains(ua, "Linux") && !Contains(ua, "Android") then "Linux"
    else if Contains(ua, "Android") then "Android"
    else if Contains(ua, "iOS") || Contains(ua, "iPhone") || Contains(ua, "iPad") then "iOS"
    else Unknown
  }

  /** The device cascade: a phone name, then a tablet name, else Desktop. */
  function Device(ua: string): (d: string)
    ensures d in ["Mobile", "Tablet", "Desktop"]
  {
    if Contains(ua, "Mobile") || Contains(ua, "Android") || Contains(ua, "iPhone") then "Mobile"
    else if Contains(ua, "Tablet") || Contains(ua, "iPad") then "Tablet"
    else "Desktop"
  }

  /** `parseUserAgent`: all three Unknown without a user agent, the three cascades otherwise. */
  function ParseUserAgent(userAgent: Option<string>): (r: ClientInfo)
    ensures !Present(userAgent) ==> r == ClientInfo(Unknown, Unknown, Unknown)
    ensures Present(userAgent) ==> r.device != Unknown
  {
    if !Present(userAgent) then ClientInfo(Unknown, Unknown, Unknown)
    else
      var ua := userAgent.value;
      ClientInfo(Browser(ua), Os(ua), Device(ua))
  }

  /**
   * A detection rule in table form: it fires when the user agent contains one of
   * `anyOf` and none of `noneOf`.
   */
  datatype Rule = Rule(name: string, anyOf: seq<string>, noneOf: seq<string>)

  /** One of `subs[k..]` occurs in `ua`. */
  predicate ContainsAny(ua: string, subs: seq<string>, k: nat)
    decreases |subs| - k
  {
    k < |subs| && (Contains(ua, subs[k]) || ContainsAny(ua, subs, k + 1))
  }

  predicate Fires(rule: Rule, ua: string) {
    ContainsAny(ua, rule.anyOf, 0) && !ContainsAny(ua, rule.noneOf, 0)
  }

  /** The name of the first rule from `rules[k..]` that fires, or `fallback`. */
  function FirstMatch(rules: seq<Rule>, k: nat, ua: string, fallback: string): (name: string)
    ensures name == fallback || exists j :: k <= j < |rules| && rules[j].name == name && Fires(rules[j], ua)
    decreases |rules| - k
  {
    if k >= |rules| then fallback
    else if Fires(rules[k], ua) then rules[k].name
    else FirstMatch(rules, k + 1, ua, fallback)
  }

  const BrowserRules: seq<Rule> := [
    Rule("Chrome", ["Chrome"], ["Edg"]),
    Rule("Firefox", ["Firefox"], []),
    Rule("Safari", ["Safari"], ["Chrome"]),
    Rule("Edge", ["Edg"], []),
    Rule("IE", ["MSIE", "Trident"], [])
  ]

  const OsRules: seq<Rule> := [
    Rule("Windows", ["Windows"], []),
    Rule("macOS", ["Mac OS"], []),
    Rule("Linux", ["Linux"], ["Android"]),
    Rule("Android", ["Android"], []),
    Rule("iOS", ["iOS", "iPhone", "iPad"], [])
  ]

  const DeviceRules: seq<Rule> := [
    Rule("Mobile", ["Mobile", "Android", "iPhone"], []),
    Rule("Tablet", ["Tablet", "iPad"], [])
  ]

  /** The browser cascade is the first-match reading of its rule table. */
  lemma BrowserFollowsRules(ua: string)
    ensures Browser(ua) == FirstMatch(BrowserRules, 0, ua, Unknown)
  {
    BrowserLaterRules(ua);
    BrowserSecondRule(ua);
  }

  lemma BrowserSecondRule(ua: string)
    ensures FirstMatch(BrowserRules, 1, ua, Unknown)
            == if Contains(ua, "Firefox") then "Firefox" else FirstMatch(BrowserRules, 2, ua, Unknown)
  {
    assert BrowserRules[1] == Rule("Firefox", ["Firefox"], []);
  }

  lemma BrowserLaterRules(ua: string)
    ensures FirstMatch(BrowserRules, 2, ua, Unknown)
            == if Contains(ua, "Safari") && !Contains(ua, "Chrome") then "Safari"
               else if Contains(ua, "Edg") then "Edge"
               else if Contains(ua, "MSIE") || Contains(ua, "Trident") then "IE"
               else Unknown
  {
    BrowserLastRules(ua);
  }

  lemma BrowserLastRules(ua: string)
    ensures FirstMatch(BrowserRules, 3, ua, Unknown)
            == if Contains(ua, "Edg") then "Edge"
               else if Contains(ua, "MSIE") || Contains(ua, "Trident") then "IE"
               else Unknown
  {
    assert FirstMatch(BrowserRules, 4, ua, Unknown) == if Contains(ua, "MSIE") || Contains(ua, "Trident") then "IE" else Unknown;
  }

  /** The OS cascade is the first-match reading of its rule table. */
  lemma OsFollowsRules(ua: string)
    ensures Os(ua) == FirstMatch(OsRules, 0, ua, Unknown)
  {
    OsLaterRules(ua);
    OsSecondRule(ua);
  }

  lemma OsSecondRule(ua: string)
    ensures FirstMatch(OsRules, 1, ua, Unknown) == if Contains(ua, "Mac OS") then "macOS" else FirstMatch(OsRules, 2, ua, Unknown)
  {
    assert OsRules[1] == Rule("macOS", ["Mac OS"], []);
  }

  lemma OsLaterRules(ua: string)
    ensures FirstMatch(OsRules, 2, ua, Unknown)
            == if Contains(ua, "Linux") && !Contains(ua, "Android") then "Linux"
               else if Contains(ua, "Android") then "Android"
               else if Contains(ua, "iOS") || Contains(ua, "iPhone") || Contains(ua, "iPad") then "iOS"
               else Unknown
  {
    OsLastRules(ua);
  }

  lemma OsLastRules(ua: string)
    ensures FirstMatch(OsRules, 3, ua, Unknown)
            == if Contains(ua, "Android") then "Android"
               else if Contains(ua, "iOS") || Contains(ua, "iPhone") || Contains(ua, "iPad") then "iOS"
               else Unknown
  {
    assert FirstMatch(OsRules, 4, ua, Unknown)
           == if Contains(ua, "iOS") || Contains(ua, "iPhone") || Contains(ua, "iPad") then "iOS" else Unknown;
  }

  /** The device cascade is the first-match reading of its rule table, Desktop by default. */
  lemma DeviceFollowsRules(ua: string)
    ensures Device(ua) == FirstMatch(DeviceRules, 0, ua, "Desktop")
  {
    var r := DeviceRules;
    assert FirstMatch(r, 1, ua, "Desktop") == if Contains(ua, "Tablet") || Contains(ua, "iPad") then "Tablet" else "Desktop";
  }

  /** Edge's user agent also names Chrome and Safari; the `Edg` exclusions make it Edge. */
  lemma EdgeIsNotChrome(ua: string)
    requires Contains(ua, "Chrome") && Contains(ua, "Edg") && !Contains(ua, "Firefox")
    ensures ParseUserAgent(Some(ua)).browser == "Edge"
  {
  }

  /** `Mac OS` is matched before the iOS names, so a user agent with both reads as macOS. */
  lemma MacOsShadowsIPhone(ua: string)
    requires Contains(ua, "Mac OS") && Contains(ua, "iPhone") && !Contains(ua, "Windows")
    ensures ParseUserAgent(Some(ua)).os == "macOS"
    ensures ParseUserAgent(Some(ua)).device == "Mobile"
  {
  }

  // ---------------------------------------------------------------------------
  // Client IP

  /** `x-forwarded-for.split(",")[0] || remoteAddress || "Unknown"`. */
  function ClientIp(forwardedFor: Option<string>, remoteAddress: Option<string>): (ip: string)
    ensures ip != ""
  {
    var first := if forwardedFor.Some? then FirstPiece(forwardedFor.value, ',') else "";
    if first != "" then first
    else if Present(remoteAddress) then remoteAddress.value
    else Unknown
  }

  /**
   * The IP is the forwarded header's first hop when that hop is non-empty: the text
   * before its first comma; otherwise the socket address, otherwise `Unknown`.
   */
  lemma ClientIpIsFirstHop(forwardedFor: Option<string>, remoteAddress: Option<string>)
    ensures var ip := ClientIp(forwardedFor, remoteAddress);
            && (forwardedFor.Some? && |forwardedFor.value| > 0 && forwardedFor.value[0] != ',' ==>
                  && StartsWith(forwardedFor.value, ip) && ',' !in ip
                  && (|ip| == |forwardedFor.value| || forwardedFor.value[|ip|] == ','))
            && ((forwardedFor.None? || forwardedFor.value == "" || forwardedFor.value[0] == ',') ==>
                  ip == (if Present(remoteAddress) then remoteAddress.value else Unknown))
  {
  }

  // ---------------------------------------------------------------------------
  // Handler

  datatype MetadataRecord = MetadataRecord(browser: string, os: string, device: string, ip: Option<string>,
                                           country: string, city: string)

  datatype Request = Request(verb: Method, viewId: JsString, userAgent: Option<string>,
                             forwardedFor: Option<string>, remoteAddress: Option<string>)

  datatype Body = ErrorBody(error: string) | Recorded(metadata: MetadataRecord) | NotAllowed(text: string)

  datatype Outcome = Outcome(code: int, body: Body, db: map<string, MetadataRecord>)

  /** The record a request writes; it is the same on the create and the update branch. */
  function RecordOf(req: Request): MetadataRecord {
    var info := ParseUserAgent(req.userAgent);
    MetadataRecord(info.browser, info.os, info.device, Some(ClientIp(req.forwardedFor, req.remoteAddress)), Unknown, Unknown)
  }

  /** `handle`: POST with a truthy `viewId` upserts; any other method is 405. */
  function Handle(db: map<string, MetadataRecord>, req: Request): (o: Outcome)
    ensures req.verb != Post ==> o == Outcome(405, NotAllowed("Method " + MethodName(req.verb) + " Not Allowed"), db)
    ensures req.verb == Post && !Truthy(req.viewId) ==> o == Outcome(400, ErrorBody("Missing viewId"), db)
    ensures o.code == 200 <==> req.verb == Post && Truthy(req.viewId)
    ensures o.code == 200 ==>
              && o.db.Keys == db.Keys + {req.viewId.s}
              && (forall v :: v in db && v != req.viewId.s ==> o.db[v] == db[v])
              && o.body == Recorded(o.db[req.viewId.s])
              && o.db[req.viewId.s].country == Unknown && o.db[req.viewId.s].city == Unknown
    ensures o.code == 200 ==>
              var info := ParseUserAgent(req.userAgent);
              var stored := o.db[req.viewId.s];
              && stored.browser == info.browser && stored.os == info.os && stored.device == info.device
              && stored.ip == Some(ClientIp(req.forwardedFor, req.remoteAddress))
  {
    if req.verb != Post then Outcome(405, NotAllowed("Method " + MethodName(req.verb) + " Not Allowed"), db)
    else if !Truthy(req.viewId) then Outcome(400, ErrorBody("Missing viewId"), db)
    else
      var rec := RecordOf(req);
      Outcome(200, Recorded(rec), db[req.viewId.s := rec])
  }

  /**
   * The stored record depends on the request alone, not on what was there before:
   * the upsert's update and create branches write the same fields, so a repeated post
   * overwrites, and posting twice is the same as posting once.
   */
  lemma UpsertForgetsHistory(db1: map<string, MetadataRecord>, db2: map<string, MetadataRecord>, req: Request)
    requires req.verb == Post && Truthy(req.viewId)
    ensures Handle(db1, req).db[req.viewId.s] == Handle(db2, req).db[req.viewId.s]
    ensures Handle(Handle(db1, req).db, req) == Handle(db1, req)
  {
  }
}

=== FILE: wrappers.dfy ===
/** Optional values, used for `undefined`-able fields and for operations that can fail. */
module Wrappers {

  datatype Option<+T> = None | Some(value: T) {

    /** The value, or `default` when absent. */
    function GetOr(default: T): T {
      match this
      case Some(v) => v
      case None => default
    }
  }
}

/**
 * JavaScript truthiness for the string-like and number-like inputs the handlers read
 * from request bodies and environment variables.
 */
module Js {
  import opened Wrappers

  /** A JSON/JavaScript value that is either absent, `null`, or a string. */
  datatype JsString = Undefined | Null | Str(s: string)

  /** `!!v` for a string-like value: only a non-empty string is truthy. */
  predicate Truthy(v: JsString) {
    v.Str? && v.s != ""
  }

  /** `!!v` for an optional string (an environment variable, a header). */
  predicate Present(o: Option<string>) {
    o.Some? && o.value != ""
  }

  /** `v || fallback`. */
  function Or(v: JsString, fallback: string): string {
    if Truthy(v) then v.s else fallback
  }

  /** `v || null`. */
  function OrNull(v: JsString): Option<string> {
    if Truthy(v) then Some(v.s) else None
  }

  /** `n || fallback` for an optional number: `undefined` and `0` are falsy. */
  function NumOr(n: Option<int>, fallback: int): int {
    if n.Some? && n.value != 0 then n.value else fallback
  }

  /** The value a defined JSON string-or-null field stores (`null` stores as absent). */
  function Stored(v: JsString): Option<string> {
    if v.Str? then Some(v.s) else None
  }
}

/** The parts of an HTTP request the handlers branch on. */
module Http {

  datatype Method = Get | Post | OtherMethod(name: string)

  /** A query-string parameter as Next.js delivers it: absent, once, or repeated. */
  datatype QueryValue = Absent | Single(s: string) | Repeated(values: seq<string>)

  /** `!v || typeof v !== "string"` is false: a non-empty single value. */
  predicate IsIdParam(q: QueryValue) {
    q.Single? && q.s != ""
  }

  /** `req.method` as the 405 text prints it. */
  function MethodName(verb: Method): string {
    match verb
    case Get => "GET"
    case Post => "POST"
    case OtherMethod(name) => name
  }
}
